=== FILE: README.md ===
# theme-info, modelled in Dafny

theme-info is a small WordPress library that a theme loads to get an "info"
page under Appearance. The theme passes in one configuration array:

- a welcome text, a badge image and quick links;
- a set of tabs, each rendered in one of four modes: `content`, `tgmpa`,
  `custom` or `grid`.

The library does the following with it:

- it works out the labels, the page slug and the badge link from the active
  theme;
- it substitutes the placeholders `{{theme_name}}`, `{{theme_slug}}` and
  `{{theme_version}}` into the configured texts;
- it renders the page: tab navigation, then the selected tab's section;
- it shows a dismissible notice on the Themes screen and the Dashboard.

All of this lives in `src/Info.php`.

The model is functional. Page output is a sequence of abstract HTML
fragments holding the raw strings. The host's answers are inputs:

- the active theme;
- the requested tab;
- the TGM Plugin Activation state;
- the render callbacks;
- the current screen and the capability check;
- the user meta.

| file | module | what it holds |
|---|---|---|
| `php.dfy` | `Options`, `Php` | PHP's ordered arrays and the conversions the code relies on: integer-like string keys become integer keys; `empty()`, `isset`, string conversion, loose `switch` comparison and `absint` |
| `substitution.dfy` | `Substitution` | `str_replace` as a left-to-right non-overlapping pass, `filter_content` as three chained passes, and a single-pass reference expansion to compare it with |
| `config.dfy` | `Config` | `configure`, `prepare_content`/`prepare_data`, the `init` guard, the page registration and the style hook |
| `render.dfy` | `Render` | `render_page`, `render_tabs`, `render_current_tab_content`, `render_grid_item(s)`, `render_quick_links` |
| `notice.dfy` | `Notice` | `check_notice`, the dismiss link and `display_admin_notice` |

## Model

| member | source | states |
|---|---|---|
| `Php.IntStringRoundTrip` | src/Info.php:316 | A request string that spells an integer is read as that integer key: printing an integer and parsing it back as an array key gives the integer. |
| `Php.ArrayKeyPrintsBack` | src/Info.php:289-292 | Any string stored as an array key is a valid PHP key, and printing the key (as the tab class and link do) gives the string back. |
| `Php.LookupAfterUpdate` | src/Info.php:167-184 | Assigning `$this->config[$key]` changes what that key reads and leaves every other key reading as before. |
| `Php.EmptyScalarIsFalsyString` | src/Info.php:165 | For a scalar, `empty()` holds exactly when its string form is "" or "0". |
| `Substitution.ReplaceAllIsJoinOfSplit` | src/Info.php:638 | One `str_replace` pass cuts the text at the non-overlapping occurrences of the search string, scanning left to right, and joins the pieces with the replacement. |
| `Substitution.ReplaceAll` | src/Info.php:638 | One `str_replace` pass, defined by its body. Its meaning is stated by `Substitution.ReplaceAllIsJoinOfSplit` and `Substitution.SplitPiecesAvoidPattern`. |
| `Substitution.SplitPiecesAvoidPattern` | src/Info.php:638 | None of the pieces between replaced occurrences contains the search string, so a pass replaces every occurrence present in its input. |
| `Substitution.SplitJoinRoundTrip` | src/Info.php:638 | Rejoining the pieces with the search string itself gives back the original text. |
| `Substitution.FilterWithoutTokens` | src/Info.php:629-639 | A text containing none of the three placeholders comes back unchanged. |
| `Substitution.Filter` | src/Info.php:629-639 | `filter_content`, defined by its body as the three passes for name, slug and version in that order. Its meaning is stated by `Substitution.FilterExpandsTemplate` and `Substitution.FilterTemplateIdempotent`. |
| `Substitution.FilterExpandsTemplate` | src/Info.php:629-639 | Take a text in which every `{` opens a placeholder, and theme values without `{`. Then the three chained passes equal the single-pass reference expansion, which puts each placeholder's value in its place. |
| `Substitution.FilterTemplateIdempotent` | src/Info.php:629-639 | Under the same conditions, no placeholder is left in the output, and substituting a second time changes nothing. |
| `Substitution.BraceFreeIsTemplate` | src/Info.php:629-639 | Plain text without `{` meets the template condition, so the two theorems above cover it. |
| `Substitution.NameValueIsRescanned` | src/Info.php:630-638 | A theme name that contains `{{theme_slug}}` is expanded again by the later slug pass, so the chained passes differ from one literal pass. |
| `Substitution.FilterNotIdempotentInGeneral` | src/Info.php:630-638 | Even with theme values that contain no `{`, substitution is not idempotent on arbitrary text: a placeholder can form across the edge of an inserted value. |
| `Config.Configure` | src/Info.php:101-126 | A child theme takes its parent's name, while version and slug come from the active theme. A label set in the configuration is used as its string form, and an unset one defaults to "<name> Info". The page slug is exactly the slug followed by "-info", and the page path follows from it. The notice screens are exactly `themes` and `dashboard`. The badge links to the author URI when that is truthy, else to the theme URI. |
| `Config.InfoPageRegistration` | src/Info.php:224-226 | The page is registered with the `activate_plugins` capability under "<slug>-info". Its page and menu titles are the default label unless the configuration sets them. |
| `Config.Registration` | src/Info.php:224-226 | The arguments of `add_theme_page`, defined by its body. They are stated by `Config.InfoPageRegistration`. |
| `Config.StyleOnlyOnInfoPage` | src/Info.php:454-458 | The inline style is added on exactly one admin hook, `appearance_page_<slug>-info`. |
| `Config.StyleApplies` | src/Info.php:454-458 | The `in_array` test of `load_assets`, defined by its body. It is stated by `Config.StyleOnlyOnInfoPage`. |
| `Config.FilterValue` | src/Info.php:629-639 | A scalar comes back as the substitution of its string form. An array keeps its length and keys. Each scalar entry becomes the substitution of its string form, and each nested array is copied unchanged, as `str_replace` does with an array subject. |
| `Config.PrepareData` | src/Info.php:164-187 | A missing or empty key is left alone. A filled key is replaced by its prepared value. Every other entry is unchanged, and length and key order are kept. |
| `Config.PrepareContent` | src/Info.php:149-155 | `prepare_content`, defined by its body: `welcome_content`, then `quick_links`. Its effect is stated by `Config.PrepareContentEffect` and `Config.PrepareContentIdempotent`. |
| `Config.PrepareContentEffect` | src/Info.php:149-155 | Preparation keeps length and keys and touches only `welcome_content` and `quick_links`. A non-empty welcome string becomes its substitution. |
| `Config.PrepareDataElsewhere` | src/Info.php:164-187 | Preparing one key leaves every other key's value as it was. |
| `Config.PrepareDataSettles` | src/Info.php:164-187 | On template texts with brace-free theme values, a prepared key is already in its final form. |
| `Config.PrepareContentIdempotent` | src/Info.php:149-187 | Take unique keys, brace-free theme values, and welcome text and quick links whose texts are templates. Then preparing the content a second time changes nothing. |
| `Config.Init` | src/Info.php:84-94 | Only the first call creates the instance. It is configured exactly when the configuration is a non-empty array. |
| `Config.Setup` | src/Info.php:87-91 | `configure` followed by `prepare_content`, defined by its body. It is used by `Config.InfoPageRegistration`, `Config.StyleOnlyOnInfoPage` and `Render.SetupLeavesNoPlaceholder`. |
| `Config.InitOnlyOnce` | src/Info.php:84-94 | A second `init`, with any configuration, leaves the first instance as it was. |
| `Render.NavLinks` | src/Info.php:289-293 | One link per tab, in configuration order. Each link carries the tab's key, title and the page path, and is active exactly when its key is the selected one. |
| `Render.SelectedKey` | src/Info.php:281-285 | `$current_tab` as the navigation compares it: the request string as a string, else the first key. Defined by its body, and used by `Render.RenderTabs`. |
| `Render.RenderTabs` | src/Info.php:274-296 | No tabs give no navigation. Otherwise the navigation element holds exactly `Render.NavLinks` for the tabs: one link per tab, in order, each carrying the page path, the key as printed and the tab's title. A link is active iff its key `===` the selected key. |
| `Render.DefaultTabIsFirst` | src/Info.php:281-293 | With no tab requested and unique keys, the first link and only it is active. |
| `Render.AtMostOneActive` | src/Info.php:289-293 | With unique tab keys, at most one navigation link is active. |
| `Render.ContentKey` | src/Info.php:310-316 | The key `$tabs[ $current_tab ]` reads. For a request, it is a valid PHP key that prints back to the request string. With no request, it is the first key. |
| `Render.CurrentLabel` | src/Info.php:310-318 | `$current_tab` as printed into the section classes, defined by its body: the request string, else the first key printed. |
| `Render.PluginList` | src/Info.php:350-356 | One list item per plugin, in order, inside the list element. The list is omitted when there are no plugins. |
| `Render.PluginChecklist` | src/Info.php:339-357 | Without TGM Plugin Activation nothing is printed. With it, the output is the "Manage Plugins" link, present iff installation is not complete, followed by the plugin list, one entry per plugin, in order. Nothing else is printed. |
| `Render.CustomOutput` | src/Info.php:361-366 | A missing or non-callable `render_callback` prints nothing. A callable one prints exactly what calling it prints. |
| `Render.GridButtonClass` | src/Info.php:423-430 | `primary` maps to `button button-primary` and `secondary` to `button button-secondary`, and only they. Everything else, absent included, maps to the empty class. |
| `Render.GridButton` | src/Info.php:421-433 | The button appears iff both text and URL are non-empty. Its target is `_blank` iff `is_new_tab` is `true` or `'1'`, else `_self`. Its class follows the button type, and its text and URL are substituted. |
| `Render.GridHeading` | src/Info.php:405-415 | The heading appears iff the title is non-empty. Its text is the substituted title. It carries an icon iff `icon` is non-empty, and the icon is the `icon` value as given. |
| `Render.GridDescription` | src/Info.php:417-419 | The description appears iff it is non-empty, and its text is the substituted description. |
| `Render.RenderGridItem` | src/Info.php:402-436 | Each item is wrapped in its own element. |
| `Render.GridItemLayout` | src/Info.php:402-436 | An item holds at most one heading, one description and one button, in that order. Each appears exactly when its fields are filled: the title; the description; both button text and URL. Each is the fragment its part renders. |
| `Render.GridItems` | src/Info.php:389-393 | No items print nothing. Otherwise the output starts with the first item's opening and ends with the last item's closing. |
| `Render.GridItemsInOrder` | src/Info.php:389-393 | The grid is every item's own rendering, one after the other, in configuration order. |
| `Render.GridItemsAppend` | src/Info.php:389-393 | Rendering two runs of items one after the other gives the first run's output followed by the second's. |
| `Render.SwitchCases` | src/Info.php:326-373 | Under PHP 8's loose comparison, a mode value matches a case label iff it is that very string or `true`. |
| `Render.ModeBody` | src/Info.php:326-377 | The cases of the switch for a given mode value: `content` or `true` print the content, `tgmpa` the content and the checklist, `custom` the callback's output and `grid` the items. Any other value prints nothing. |
| `Render.GridSection` | src/Info.php:368-373 | The `grid` case, defined by its body: the items when `items` is filled and is an array, else nothing. |
| `Render.TabBody` | src/Info.php:326-377 | Mode `content` (or `true`, which matches the first case) prints the substituted content. `tgmpa` prints the content, then the plugin checklist. `custom` prints the callback's output. `grid` prints the items. Null, false, integer and array modes, and any other string, print nothing. |
| `Render.RenderCurrentTabContent` | src/Info.php:303-377 | No tabs give no section. Otherwise there is one section whose classes name the current tab and the mode of the tab the request reads. Between its opening and closing is exactly what that tab's mode prints (`Render.TabBody`). |
| `Render.OtherModeRendersEmptySection` | src/Info.php:326-377 | A tab whose mode is none of the four known ones renders an empty section. |
| `Render.SectionClasses` | src/Info.php:318-322 | The section class string, defined by its body. It is stated by `Render.GridClassOnlyForGrid`. |
| `Render.UnknownTabRendersEmptySection` | src/Info.php:310-324 | A requested key that names no tab gives an empty section whose mode class is empty. The code does not fall back to the first tab. |
| `Render.CustomWithoutCallbackIsEmpty` | src/Info.php:361-366 | A `custom` tab without a callable callback renders an empty section. |
| `Render.GridClassOnlyForGrid` | src/Info.php:318-322 | The section classes are `ti-section ti-section-<key> ti-render-mode-<mode>`, with ` ti-grid` appended iff the mode is `grid`. |
| `Render.UnknownRequestActivatesNothing` | src/Info.php:281-293 | A requested key that names no tab leaves every navigation link inactive. |
| `Render.IntegerKeyRequestQuirk` | src/Info.php:289-316 | In any configuration with valid PHP keys and a tab stored under key 0, the request `tab=0` shows that tab's content. No link is active, because the navigation compares the request string with `===`. |
| `Render.FollowingNavLink` | src/Info.php:286-316 | Take a request equal to the tab's key as printed into its link. It shows that tab's content, and the link is then marked active iff the key is a string: an integer key comes back as a string and fails `===`. |
| `Render.QuickLinksShareButtonClasses` | src/Info.php:607-613 | Quick links map `button_type` to the same classes as grid buttons. |
| `Render.RenderQuickLinks` | src/Info.php:599-619 | Nothing is printed iff the quick links are empty. Every link opens in a new tab. An array of links gives, in order, the link built from each entry's URL, text and button type. A non-empty scalar gives an empty paragraph. |
| `Render.QuickLinkBlock` | src/Info.php:599-619 | The quick-links paragraph for the value read: nothing iff it is empty, one link per array entry in order, and every link opening in a new tab. |
| `Render.QuickLinkAnchor` | src/Info.php:602-617 | One quick link. It points to the entry's `url` and shows its `text`, both read as PHP strings. It opens in a new tab, and its class is the one a grid button of the same type gets. |
| `Render.QuickLinkOrigin` | src/Info.php:602-617 | Every link printed is built from one entry of the quick links. |
| `Render.Badge` | src/Info.php:244-254 | The badge image is always shown. When the badge URL is truthy, the output is the link opening, then the image, then the link closing; otherwise it is the image alone. |
| `Render.Intro` | src/Info.php:238-255 | A filled welcome text comes first, and no welcome message appears otherwise. The badge image appears iff `badge_image_url` is filled, and is then wrapped in a link iff the badge URL is truthy. After the optional welcome message, the rest of the output is exactly `Render.Badge` when the badge is filled, and nothing otherwise. |
| `Render.RenderPage` | src/Info.php:233-267 | The page is wrapped in its own element and starts with "<name> - <version>". A filled welcome text follows directly. |
| `Render.SetupLeavesNoPlaceholder` | src/Info.php:149-187 | After `init`, take a welcome text and quick links whose texts are templates, and theme values without braces. Then neither the rendered welcome message nor any rendered quick link's text or URL holds a placeholder. |
| `Render.StartTabRendersGridButton` | src/Info.php:281-432 | A configuration with one grid tab "start" holding one item that has a primary button opening in a new tab. With no tab requested, its link is the active one, and the section holds the item's heading and its primary `_blank` button, with the texts kept. |
| `Notice.CheckNotice` | src/Info.php:213-217 | Without the dismiss argument nothing changes. With it, a nonce for the current user's action stores 1 under `theme_info_dismissed_<slug>` for that user, and any other nonce ends the request with nothing stored. No other meta entry changes. |
| `Notice.DismissRequest` | src/Info.php:141 | The request the notice's dismiss link makes, defined by its body: the dismiss argument and a nonce for the user's own action. It is used by `Notice.DismissLinkHidesNotice` and `Notice.ForeignDismissLinkHalts`. |
| `Notice.NonceActionsDiffer` | src/Info.php:214 | Different users have different nonce actions. |
| `Notice.DismissedKeysDiffer` | src/Info.php:215 | Different theme slugs use different meta keys. |
| `Notice.DismissLinkHidesNotice` | src/Info.php:213-217 | Following the notice's own dismiss link records the dismissal, and the notice is then hidden on every screen. |
| `Notice.ForeignDismissLinkHalts` | src/Info.php:213-217 | A dismiss link minted for another user ends the request and stores nothing. |
| `Notice.DismissalIsPersonal` | src/Info.php:213-217 | Whatever the request, the notice of every other user, and of every other theme, is shown exactly as before. |
| `Notice.NoDismissKeepsNotice` | src/Info.php:213-217 | Without the argument or without a valid nonce, the meta store is unchanged. |
| `Notice.DisplayNotice` | src/Info.php:567-583 | The notice box is printed iff the user can edit theme options, there is a current screen in the notice screens, and the stored flag read through `absint` is not 1. |
| `Notice.DismissStatus` | src/Info.php:576-578 | The stored flag read through `absint`: it is 1 exactly when the user's key for the theme holds 1 or -1, and a missing key reads 0. |
| `Notice.NoticeVisible` | src/Info.php:578 | The condition of `display_admin_notice`, defined by its body. It is stated by `Notice.DisplayNotice` and `Notice.NoticeScreens`. |
| `Notice.NoticeScreens` | src/Info.php:576-578 | For a configured instance, the notice shows iff the user can edit theme options, the screen is `themes` or `dashboard`, and the user has not dismissed it. A missing screen never shows it. |
| `Notice.MinusOneDismisses` | src/Info.php:578 | Because of `absint`, a stored -1 hides the notice just as a stored 1 does. |

## Behaviour of the code worth knowing

- `str_replace` with arrays runs the three replacements one after another over
  the whole text. So a placeholder of a later pass inside a value inserted by an earlier pass
  is expanded, while one of an earlier pass survives (`Substitution.NameValueIsRescanned`).
- Substitution is not idempotent on arbitrary text, even with theme values
  that contain no `{`: a placeholder can form across the edge of an inserted
  value (`Substitution.FilterNotIdempotentInGeneral`). It is idempotent on
  template text, where every `{` opens a placeholder, with brace-free values
  (`Substitution.FilterTemplateIdempotent`, `Config.PrepareContentIdempotent`).
- A requested tab that names no tab does not fall back to the first tab. Its
  mode reads as null, so the page prints an empty section with an empty mode
  class, and no link is active (`Render.UnknownTabRendersEmptySection`,
  `Render.UnknownRequestActivatesNothing`).
- A request for tab "0" reads the tab stored under the integer key 0, but marks
  no link active (`Render.IntegerKeyRequestQuirk`). More generally, the link of
  an integer-keyed tab is never highlighted once it is reached by following its
  link (`Render.FollowingNavLink`). It is highlighted only as the default first
  tab when no tab is requested.
- When the dismiss argument is present but the nonce is not valid,
  `check_admin_referer` ends the request. The model returns a halted outcome
  with the store unchanged.

## Left out

- Escaping and sanitising (`esc_html`, `esc_attr`, `esc_url`, `wp_kses_post`, `wpautop`): fragments hold the raw strings, and escaping belongs to their serialisation.
- Translation and formatting of fixed texts (`esc_html__`, `sprintf`), including the notice text built in `configure`: the notice fragment carries the theme name, the page path and the dismiss URL it is built from.
- Hook registration (`add_action`), `wp_get_theme` (an `ActiveTheme` record is the input), `admin_url`, `add_query_arg`, `wp_nonce_url`, `current_user_can`, `get_current_screen` and user meta storage: these are host calls, modelled as inputs.
- Nonce verification: a nonce is modelled by the action it was minted for. Lifetime and session binding belong to WordPress.
- `get_page_style`: static CSS.
- `wp_unslash` of the requested tab: the request is taken after unslashing.
- `assets/js/info.js`: client-side script, not logic of the page.
- Floats, objects and closures as configuration values. `callback` maps a value to the output of calling it, or to None when it is not callable.
- Render.Tabs: a `tabs` value that is a non-empty scalar is treated as no tabs. In the code, with no tab requested, `key()` on a string throws a TypeError under PHP 8 (src/Info.php:284 and 313). With a tab requested, it prints an empty navigation wrapper and reads string offsets of the scalar. Neither failure is modelled.
- Render.FollowingNavLink: the code prints `&tab=<key>` into the link without URL encoding. The lemma takes the request to be the key as printed. That holds only for keys without `&`, `+`, `#` or `%`; other keys come back changed, e.g. "a&b" as "a". URL encoding and decoding are not modelled.
- Render.NavLinks: a tab whose value is a non-empty string is read as having no fields. The link gets an empty title, and the section a null mode. In the code, `$tab['title']` and `$tabs[ $current_tab ]['render_mode']` (src/Info.php:292, 316) then read a non-numeric string offset. That is an error under PHP 8 and the first character under PHP 7; neither is modelled.
- Render.TabBody: a `content` value that is an array prints as `RichText("Array")`. In the code, `wpautop()` (src/Info.php:329, 336) passes it to `trim()`, which throws a TypeError under PHP 8; that failure is not modelled.
- Render.SelectedKey: the `tab` query parameter is taken as a string. An array parameter (`?tab[]=x`) makes `$tabs[ $current_tab ]` throw an "Illegal offset type" error under PHP 8 (src/Info.php:316); that failure is not modelled.
- Render.TabBody: the switch is modelled with PHP 8's loose comparison, and the code does not pin a PHP version. Under PHP 7, `0 == 'content'` is true, so an integer mode 0 would render the content; the model prints nothing for it.
- Render.QuickLinkAnchor: a quick link that is a scalar reads every field as missing. PHP's string-offset behaviour is not modelled.
- Notice.DismissStatus: user meta values are modelled as integers. The code only ever writes 1, and numeric strings read through `absint` alike.
- Php.IntToString: integers are unbounded. The bounds of `PHP_INT_MIN`/`PHP_INT_MAX` on integer-like keys are not modelled.
- Render.RenderPage: the contract states the frame, the heading and the welcome text. The order of badge, quick links, navigation and section is given by the definition alone.
- Render.GridItems: the contract states only the frame of the output. Order and content are stated by the lemmas `Render.GridItemsInOrder` and `Render.GridItemsAppend`.
- Render.RenderGridItem: the contract states only the frame of the item. Order, presence and content of its parts are stated by the lemma `Render.GridItemLayout`.

=== FILE: config.dfy ===
/**
 * Start-up of the info page: `Info::init`, `configure`, `prepare_content`
 * and `prepare_data`, which fix the theme facts and substitute the theme
 * placeholders into the welcome text and the quick links.
 */
module Config {
  import opened Options
  import opened Php
  import opened Substitution

  /**
   * What WordPress reports about the active theme. `parentName` is the
   * parent theme's name when the active theme is a child theme; `template`
   * is the active theme's template directory (the parent's for a child).
   */
  datatype ActiveTheme = ActiveTheme(
    name: string,
    version: string,
    template: string,
    themeUri: string,
    authorUri: string,
    parentName: Option<string>)

  /** The configured instance: the prepared configuration and the facts `configure` derives. */
  datatype Info = Info(
    config: seq<Entry>,
    themeName: string,
    themeVersion: string,
    themeSlug: string,
    menuName: string,
    pageName: string,
    pageSlug: string,
    pagePath: string,
    noticePages: seq<string>,
    badgeUrl: string)

  /** The replacement values `filter_content` uses. */
  function ValuesOf(info: Info): ThemeValues
  {
    ThemeValues(info.themeName, info.themeSlug, info.themeVersion)
  }

  /** The label used for the menu and the page when the configuration names none. */
  function DefaultLabel(themeName: string): string
  {
    themeName + " Info"
  }

  /** A label from the configuration if it is set (even when empty), else the default. */
  function LabelOr(config: seq<Entry>, key: string, themeName: string): string
  {
    var o := Lookup(config, ArrayKey(key));
    if IsSet(o) then ToPhpString(o.value) else DefaultLabel(themeName)
  }

  /**
   * `configure`: a child theme is announced under its parent's name, while
   * the version and the URIs are the active theme's own.
   */
  function Configure(config: seq<Entry>, theme: ActiveTheme): (info: Info)
    ensures info.config == config
    ensures theme.parentName.Some? ==> info.themeName == theme.parentName.value
    ensures theme.parentName.None? ==> info.themeName == theme.name
    ensures info.themeVersion == theme.version && info.themeSlug == theme.template
    ensures !IsSet(Lookup(config, StrKey("menu_name"))) ==> info.menuName == info.themeName + " Info"
    ensures !IsSet(Lookup(config, StrKey("page_name"))) ==> info.pageName == info.themeName + " Info"
    ensures IsSet(Lookup(config, StrKey("menu_name"))) ==> info.menuName == ToPhpString(Lookup(config, StrKey("menu_name")).value)
    ensures IsSet(Lookup(config, StrKey("page_name"))) ==> info.pageName == ToPhpString(Lookup(config, StrKey("page_name")).value)
    ensures info.pageSlug == theme.template + "-info"
    ensures info.pagePath == "themes.php?page=" + info.pageSlug
    ensures forall s :: s in info.noticePages <==> s == "themes" || s == "dashboard"
    ensures Truthy(theme.authorUri) ==> info.badgeUrl == theme.authorUri
    ensures !Truthy(theme.authorUri) ==> info.badgeUrl == theme.themeUri
  {
    var name := if theme.parentName.Some? then theme.parentName.value else theme.name;
    var slug := theme.template + "-info";
    Info(
      config,
      name,
      theme.version,
      theme.template,
      LabelOr(config, "menu_name", name),
      LabelOr(config, "page_name", name),
      slug,
      "themes.php?page=" + slug,
      ["themes", "dashboard"],
      if Truthy(theme.authorUri) then theme.authorUri else theme.themeUri)
  }

  // ---------------------------------------------------------------------
  // prepare_data
  // ---------------------------------------------------------------------

  /**
   * `filter_content` on any subject. A scalar is converted to a string and
   * substituted. An array has each scalar entry converted and substituted,
   * keys and order kept; entries that are themselves arrays are copied,
   * as str_replace does.
   */
  function FilterValue(vals: ThemeValues, v: Value): (r: Value)
    ensures !v.Arr? ==> r == Str(Filter(vals, ToPhpString(v)))
    ensures v.Arr? ==> r.Arr? && |r.entries| == |v.entries|
    ensures v.Arr? ==> forall i :: 0 <= i < |v.entries| ==> r.entries[i].key == v.entries[i].key
    ensures v.Arr? ==> forall i :: 0 <= i < |v.entries| && v.entries[i].val.Arr? ==> r.entries[i] == v.entries[i]
    ensures v.Arr? ==> forall i :: 0 <= i < |v.entries| && !v.entries[i].val.Arr? ==>
      r.entries[i].val == Str(Filter(vals, ToPhpString(v.entries[i].val)))
  {
    match v
    case Arr(es) =>
      Arr(seq(|es|, i requires 0 <= i < |es| =>
        if es[i].val.Arr? then es[i] else Entry(es[i].key, Str(Filter(vals, ToPhpString(es[i].val))))))
    case _ => Str(Filter(vals, ToPhpString(v)))
  }

  /** The closure `prepare_data` maps over an array: an array item has `filter_content` mapped over its fields. */
  function PrepareItem(vals: ThemeValues, item: Value): (r: Value)
    ensures item.Arr? ==> r.Arr? && |r.entries| == |item.entries|
    ensures item.Arr? ==> forall i :: 0 <= i < |item.entries| ==>
      r.entries[i] == Entry(item.entries[i].key, FilterValue(vals, item.entries[i].val))
    ensures !item.Arr? ==> r == FilterValue(vals, item)
  {
    match item
    case Arr(fs) =>
      Arr(seq(|fs|, i requires 0 <= i < |fs| => Entry(fs[i].key, FilterValue(vals, fs[i].val))))
    case _ => FilterValue(vals, item)
  }

  /** What `prepare_data` stores for a filled value: `array_map` for an array, `filter_content` otherwise. */
  function PrepareValue(vals: ThemeValues, v: Value): (r: Value)
    ensures v.Arr? ==> r.Arr? && |r.entries| == |v.entries|
    ensures v.Arr? ==> forall i :: 0 <= i < |v.entries| ==>
      r.entries[i] == Entry(v.entries[i].key, PrepareItem(vals, v.entries[i].val))
    ensures !v.Arr? ==> r == FilterValue(vals, v)
  {
    match v
    case Arr(items) =>
      Arr(seq(|items|, i requires 0 <= i < |items| => Entry(items[i].key, PrepareItem(vals, items[i].val))))
    case _ => FilterValue(vals, v)
  }

  /**
   * `prepare_data( key )`: a missing or empty value is left alone; a string
   * is substituted; an array keeps its keys, order and length and has every
   * element prepared. No other entry of the configuration changes.
   */
  function PrepareData(config: seq<Entry>, key: string, vals: ThemeValues): (r: seq<Entry>)
    ensures |r| == |config|
    ensures forall i :: 0 <= i < |config| ==> r[i].key == config[i].key
    ensures forall i :: 0 <= i < |config| && config[i].key != ArrayKey(key) ==> r[i] == config[i]
    ensures !Filled(Lookup(config, ArrayKey(key))) ==> r == config
    ensures Filled(Lookup(config, ArrayKey(key))) ==>
      Lookup(r, ArrayKey(key)) == Some(PrepareValue(vals, Lookup(config, ArrayKey(key)).value))
  {
    var k := ArrayKey(key);
    var cur := Lookup(config, k);
    if Filled(cur) then
      var r := Update(config, k, PrepareValue(vals, cur.value));
      LookupAfterUpdate(config, k, PrepareValue(vals, cur.value), k);
      r
    else config
  }

  /** `prepare_content`: the welcome text, then the quick links. */
  function PrepareContent(config: seq<Entry>, vals: ThemeValues): seq<Entry>
  {
    PrepareData(PrepareData(config, "welcome_content", vals), "quick_links", vals)
  }

  /** A welcome string is substituted, the quick links keep their keys and order, nothing else changes. */
  lemma PrepareContentEffect(config: seq<Entry>, vals: ThemeValues)
    ensures var r := PrepareContent(config, vals);
            && |r| == |config|
            && (forall i :: 0 <= i < |config| ==> r[i].key == config[i].key)
            && (forall i :: 0 <= i < |config| && config[i].key !in {StrKey("welcome_content"), StrKey("quick_links")} ==> r[i] == config[i])
            && (forall s :: Lookup(config, StrKey("welcome_content")) == Some(Str(s)) && s != "" && s != "0" ==>
                  Lookup(r, StrKey("welcome_content")) == Some(Str(Filter(vals, s))))
  {
    var w := StrKey("welcome_content");
    var q := StrKey("quick_links");
    assert ArrayKey("welcome_content") == w;
    assert ArrayKey("quick_links") == q;
    var c1 := PrepareData(config, "welcome_content", vals);
    if Filled(Lookup(config, w)) {
      LookupAfterUpdate(config, w, PrepareValue(vals, Lookup(config, w).value), w);
      if Filled(Lookup(c1, q)) {
        LookupAfterUpdate(c1, q, PrepareValue(vals, Lookup(c1, q).value), w);
      }
    }
  }

  // ---------------------------------------------------------------------
  // Idempotence of the preparation on template content
  // ---------------------------------------------------------------------

  /**
   * Every string that preparation substitutes, down to `depth` levels of
   * arrays, is a template: each '{' in it opens a theme placeholder.
   */
  predicate TemplateLeaves(v: Value, depth: nat)
    decreases depth
  {
    match v
    case Arr(es) => depth == 0 || forall i :: 0 <= i < |es| ==> TemplateLeaves(es[i].val, depth - 1)
    case _ => IsTemplate(ToPhpString(v), AllPlaceholders)
  }

  lemma FilterStringSettles(vals: ThemeValues, v: Value)
    requires BraceFreeValues(vals)
    requires !v.Arr? && IsTemplate(ToPhpString(v), AllPlaceholders)
    ensures FilterValue(vals, FilterValue(vals, v)) == FilterValue(vals, v)
  {
    FilterTemplateIdempotent(vals, ToPhpString(v));
  }

  /** Substituting twice equals substituting once, for template content. */
  lemma FilterValueIdempotent(vals: ThemeValues, v: Value)
    requires BraceFreeValues(vals)
    requires TemplateLeaves(v, 1)
    ensures FilterValue(vals, FilterValue(vals, v)) == FilterValue(vals, v)
  {
    if v.Arr? {
      var once := FilterValue(vals, v);
      var twice := FilterValue(vals, once);
      forall i | 0 <= i < |v.entries|
        ensures twice.entries[i] == once.entries[i]
      {
        var e := v.entries[i];
        if !e.val.Arr? {
          assert TemplateLeaves(e.val, 0);
          FilterTemplateIdempotent(vals, ToPhpString(e.val));
        }
      }
      assert twice.entries == once.entries;
    } else {
      FilterStringSettles(vals, v);
    }
  }

  lemma PrepareItemIdempotent(vals: ThemeValues, item: Value)
    requires BraceFreeValues(vals)
    requires TemplateLeaves(item, 2)
    ensures PrepareItem(vals, PrepareItem(vals, item)) == PrepareItem(vals, item)
  {
    if item.Arr? {
      var once := PrepareItem(vals, item);
      var twice := PrepareItem(vals, once);
      forall i | 0 <= i < |item.entries|
        ensures twice.entries[i] == once.entries[i]
      {
        FilterValueIdempotent(vals, item.entries[i].val);
      }
      assert twice.entries == once.entries;
    } else {
      FilterStringSettles(vals, item);
    }
  }

  lemma PrepareValueIdempotent(vals: ThemeValues, v: Value)
    requires BraceFreeValues(vals)
    requires TemplateLeaves(v, 3)
    ensures PrepareValue(vals, PrepareValue(vals, v)) == PrepareValue(vals, v)
  {
    if v.Arr? {
      var once := PrepareValue(vals, v);
      var twice := PrepareValue(vals, once);
      forall i | 0 <= i < |v.entries|
        ensures twice.entries[i] == once.entries[i]
      {
        PrepareItemIdempotent(vals, v.entries[i].val);
      }
      assert twice.entries == once.entries;
    } else {
      FilterStringSettles(vals, v);
    }
  }

  /** The value under `key` is one that `prepare_data` would not change. */
  predicate Settled(config: seq<Entry>, key: string, vals: ThemeValues)
  {
    var o := Lookup(config, ArrayKey(key));
    !Filled(o) || PrepareValue(vals, o.value) == o.value
  }

  lemma UpdateSameValue(es: seq<Entry>, k: Key, v: Value)
    requires UniqueKeys(es)
    requires Lookup(es, k) == Some(v)
    ensures Update(es, k, v) == es
  {
    forall i | 0 <= i < |es| && es[i].key == k
      ensures es[i].val == v
    {
      LookupAtIndex(es, i);
    }
  }

  lemma PrepareDataOnSettled(config: seq<Entry>, key: string, vals: ThemeValues)
    requires UniqueKeys(config)
    requires Settled(config, key, vals)
    ensures PrepareData(config, key, vals) == config
  {
    var o := Lookup(config, ArrayKey(key));
    if Filled(o) {
      UpdateSameValue(config, ArrayKey(key), o.value);
    }
  }

  lemma PrepareDataSettles(config: seq<Entry>, key: string, vals: ThemeValues)
    requires BraceFreeValues(vals)
    requires TemplateLeaves(ValueOr(Lookup(config, ArrayKey(key))), 3)
    ensures Settled(PrepareData(config, key, vals), key, vals)
  {
    var o := Lookup(config, ArrayKey(key));
    if Filled(o) {
      PrepareValueIdempotent(vals, o.value);
    }
  }

  /** Preparing one key does not change what another key reads. */
  lemma PrepareDataElsewhere(config: seq<Entry>, key: string, vals: ThemeValues, other: Key)
    requires other != ArrayKey(key)
    ensures Lookup(PrepareData(config, key, vals), other) == Lookup(config, other)
  {
    var o := Lookup(config, ArrayKey(key));
    if Filled(o) {
      LookupAfterUpdate(config, ArrayKey(key), PrepareValue(vals, o.value), other);
    }
  }

  lemma UniqueKeysKept(config: seq<Entry>, key: string, vals: ThemeValues)
    requires UniqueKeys(config)
    ensures UniqueKeys(PrepareData(config, key, vals))
  {
  }

  /**
   * Normalisation is idempotent: when the welcome text and quick links are
   * templates and the theme values are brace-free, preparing the prepared
   * configuration again changes nothing.
   */
  lemma PrepareContentIdempotent(config: seq<Entry>, vals: ThemeValues)
    requires UniqueKeys(config)
    requires BraceFreeValues(vals)
    requires TemplateLeaves(ValueOr(Lookup(config, StrKey("welcome_content"))), 3)
    requires TemplateLeaves(ValueOr(Lookup(config, StrKey("quick_links"))), 3)
    ensures PrepareContent(PrepareContent(config, vals), vals) == PrepareContent(config, vals)
  {
    var w := "welcome_content";
    var q := "quick_links";
    assert ArrayKey(w) == StrKey(w);
    assert ArrayKey(q) == StrKey(q);
    var c1 := PrepareData(config, w, vals);
    PrepareDataSettles(config, w, vals);
    PrepareDataElsewhere(config, w, vals, StrKey(q));
    var c2 := PrepareData(c1, q, vals);
    PrepareDataSettles(c1, q, vals);
    PrepareDataElsewhere(c1, q, vals, StrKey(w));
    UniqueKeysKept(config, w, vals);
    UniqueKeysKept(c1, q, vals);
    PrepareDataOnSettled(c2, w, vals);
    PrepareDataOnSettled(c2, q, vals);
  }

  // ---------------------------------------------------------------------
  // init and the registrations that follow it
  // ---------------------------------------------------------------------

  /** The single instance; `info` is None when init received no usable configuration. */
  datatype Instance = Instance(info: Option<Info>)

  /** Configure, then prepare the content with the configured theme values. */
  function Setup(config: seq<Entry>, theme: ActiveTheme): Info
  {
    var info := Configure(config, theme);
    info.(config := PrepareContent(config, ValuesOf(info)))
  }

  /**
   * `Info::init`: only the first call creates the instance, and it is
   * configured (and its hooks registered) only for a non-empty array.
   */
  function Init(slot: Option<Instance>, config: Value, theme: ActiveTheme): (r: Option<Instance>)
    ensures r.Some?
    ensures slot.Some? ==> r == slot
    ensures slot.None? ==> (r.value.info.Some? <==> config.Arr? && |config.entries| > 0)
  {
    if slot.Some? then slot
    else if !IsEmpty(config) && config.Arr? then Some(Instance(Some(Setup(config.entries, theme))))
    else Some(Instance(None))
  }

  /** A second init, with any configuration, leaves the first one's instance in place. */
  lemma InitOnlyOnce(config: Value, theme: ActiveTheme, config': Value, theme': ActiveTheme)
    ensures Init(Init(None, config, theme), config', theme') == Init(None, config, theme)
  {
  }

  /** The arguments of `add_theme_page`. */
  datatype PageRegistration = PageRegistration(pageTitle: string, menuTitle: string, capability: string, menuSlug: string)

  /** `register_page`: the page title is the configured menu name and the menu title the page name. */
  function Registration(info: Info): PageRegistration
  {
    PageRegistration(info.menuName, info.pageName, "activate_plugins", info.pageSlug)
  }

  /** `load_assets`: the page style is added only on the info page's own admin hook. */
  predicate StyleApplies(info: Info, hook: string)
  {
    hook == "appearance_page_" + info.pageSlug
  }

  /**
   * The page is registered under the theme's slug with the `activate_plugins`
   * capability, titled by the default label unless the configuration sets one.
   */
  lemma InfoPageRegistration(config: seq<Entry>, theme: ActiveTheme)
    ensures var reg := Registration(Setup(config, theme));
            reg.capability == "activate_plugins" && reg.menuSlug == theme.template + "-info"
            && (!IsSet(Lookup(config, StrKey("menu_name"))) ==> reg.pageTitle == Configure(config, theme).themeName + " Info")
            && (!IsSet(Lookup(config, StrKey("page_name"))) ==> reg.menuTitle == Configure(config, theme).themeName + " Info")
  {
  }

  /** The inline style is added on exactly one admin screen, the info page's. */
  lemma StyleOnlyOnInfoPage(config: seq<Entry>, theme: ActiveTheme, hook: string)
    ensures StyleApplies(Setup(config, theme), hook) <==> hook == "appearance_page_" + theme.template + "-info"
  {
  }
}

=== FILE: notice.dfy ===
/**
 * The dismissible admin notice: `check_notice`, `get_dismiss_url` and
 * `display_admin_notice`. User meta is a map from (user, meta key) to the
 * stored integer; a nonce is modelled by the action it was minted for.
 */
module Notice {
  import opened Options
  import opened Php
  import opened Config
  import opened Render

  /** A user meta entry: the user's id and the meta key. */
  datatype MetaKey = MetaKey(user: nat, name: string)

  type MetaStore = map<MetaKey, int>

  /**
   * The parts of an admin request the notice reads: the `theme-info-dismiss`
   * query argument, and the action the request's `_wpnonce` was minted for
   * (None when it carries no valid nonce).
   */
  datatype Request = Request(dismiss: Option<string>, nonceAction: Option<string>)

  /** The result of `check_notice`: the new meta store, and whether WordPress ended the request. */
  datatype Outcome = Outcome(store: MetaStore, halted: bool)

  /** `theme_info_dismissed_{slug}`. */
  function DismissedKey(slug: string): string
  {
    "theme_info_dismissed_" + slug
  }

  /** `theme-info-dismiss-{user id}`. */
  function NonceAction(user: nat): string
  {
    "theme-info-dismiss-" + IntToString(user)
  }

  /** The request the notice's "Dismiss this notice" link makes: the query argument plus a nonce for the user. */
  function DismissRequest(user: nat): Request
  {
    Request(Some("dismiss_admin_notices"), Some(NonceAction(user)))
  }

  /**
   * `check_notice`: with the query argument present, a nonce for the current
   * user's action records the dismissal; any other nonce makes
   * `check_admin_referer` end the request with nothing stored.
   */
  function CheckNotice(store: MetaStore, slug: string, user: nat, req: Request): (r: Outcome)
    ensures req.dismiss.None? ==> r == Outcome(store, false)
    ensures r.halted <==> req.dismiss.Some? && req.nonceAction != Some(NonceAction(user))
    ensures r.halted ==> r.store == store
    ensures req.dismiss.Some? && !r.halted ==> MetaKey(user, DismissedKey(slug)) in r.store && r.store[MetaKey(user, DismissedKey(slug))] == 1
    ensures forall k :: k in store ==> k in r.store
    ensures forall k :: k in r.store && k != MetaKey(user, DismissedKey(slug)) ==> k in store && r.store[k] == store[k]
  {
    if req.dismiss.None? then Outcome(store, false)
    else if req.nonceAction == Some(NonceAction(user)) then Outcome(store[MetaKey(user, DismissedKey(slug)) := 1], false)
    else Outcome(store, true)
  }

  /** `get_user_meta( user, key, true )` read through `absint`: a missing entry reads as "" and so as 0. */
  function DismissStatus(store: MetaStore, user: nat, slug: string): (n: nat)
    ensures n == 1 <==> MetaKey(user, DismissedKey(slug)) in store
                        && (store[MetaKey(user, DismissedKey(slug))] == 1 || store[MetaKey(user, DismissedKey(slug))] == -1)
    ensures MetaKey(user, DismissedKey(slug)) !in store ==> n == 0
  {
    var k := MetaKey(user, DismissedKey(slug));
    if k in store then Absint(store[k]) else 0
  }

  /** The condition of `display_admin_notice`. `screen` is None when there is no current screen. */
  predicate NoticeVisible(info: Info, canEdit: bool, screen: Option<string>, store: MetaStore, user: nat)
  {
    canEdit && screen.Some? && screen.value in info.noticePages && DismissStatus(store, user, info.themeSlug) != 1
  }

  /** `display_admin_notice`: the notice box, or nothing. */
  function DisplayNotice(info: Info, canEdit: bool, screen: Option<string>, store: MetaStore, user: nat, dismissUrl: string)
    : (r: seq<Fragment>)
    ensures r != [] <==> NoticeVisible(info, canEdit, screen, store, user)
    ensures r != [] ==> r == [NoticeOpen, NoticeBody(info.themeName, info.pagePath, dismissUrl), NoticeClose]
  {
    if NoticeVisible(info, canEdit, screen, store, user)
    then [NoticeOpen, NoticeBody(info.themeName, info.pagePath, dismissUrl), NoticeClose]
    else []
  }

  // ---------------------------------------------------------------------
  // Properties
  // ---------------------------------------------------------------------

  /** Distinct users have distinct nonce actions, since an id's decimal spelling determines the id. */
  lemma NonceActionsDiffer(u: nat, v: nat)
    requires u != v
    ensures NonceAction(u) != NonceAction(v)
  {
    var p := "theme-info-dismiss-";
    if NonceAction(u) == NonceAction(v) {
      assert IntToString(u) == NonceAction(u)[|p|..];
      assert IntToString(v) == NonceAction(v)[|p|..];
      IntStringRoundTrip(u);
      IntStringRoundTrip(v);
      assert false;
    }
  }

  /** Distinct themes use distinct meta keys. */
  lemma DismissedKeysDiffer(a: string, b: string)
    requires a != b
    ensures DismissedKey(a) != DismissedKey(b)
  {
    var p := "theme_info_dismissed_";
    assert DismissedKey(a)[|p|..] == a;
    assert DismissedKey(b)[|p|..] == b;
  }

  /** Following the notice's own dismiss link records the dismissal: the notice is gone on every screen. */
  lemma DismissLinkHidesNotice(info: Info, store: MetaStore, user: nat, canEdit: bool, screen: Option<string>)
    ensures var o := CheckNotice(store, info.themeSlug, user, DismissRequest(user));
            !o.halted && !NoticeVisible(info, canEdit, screen, o.store, user)
  {
  }

  /** A dismiss link minted for another user ends the request and stores nothing. */
  lemma ForeignDismissLinkHalts(store: MetaStore, slug: string, user: nat, other: nat)
    requires user != other
    ensures CheckNotice(store, slug, user, DismissRequest(other)) == Outcome(store, true)
  {
    NonceActionsDiffer(user, other);
  }

  /** A dismissal by one user for one theme leaves every other user's and theme's notice as it was. */
  lemma DismissalIsPersonal(info: Info, store: MetaStore, user: nat, req: Request,
                            info': Info, user': nat, canEdit: bool, screen: Option<string>)
    requires user' != user || info'.themeSlug != info.themeSlug
    ensures var o := CheckNotice(store, info.themeSlug, user, req);
            NoticeVisible(info', canEdit, screen, o.store, user') <==> NoticeVisible(info', canEdit, screen, store, user')
  {
    if user' == user {
      DismissedKeysDiffer(info'.themeSlug, info.themeSlug);
    }
  }

  /** Without a valid dismiss request, what the notice shows is unchanged. */
  lemma NoDismissKeepsNotice(info: Info, store: MetaStore, user: nat, req: Request, canEdit: bool, screen: Option<string>)
    requires req.dismiss.None? || req.nonceAction != Some(NonceAction(user))
    ensures var o := CheckNotice(store, info.themeSlug, user, req);
            o.store == store && (o.halted <==> req.dismiss.Some?)
  {
  }

  /**
   * For a configured instance the notice appears exactly on the Themes screen
   * and the Dashboard, for a user who can edit theme options and has not
   * dismissed it.
   */
  lemma NoticeScreens(config: seq<Entry>, theme: ActiveTheme, canEdit: bool, screen: Option<string>,
                      store: MetaStore, user: nat)
    ensures NoticeVisible(Configure(config, theme), canEdit, screen, store, user)
      <==> canEdit && (screen == Some("themes") || screen == Some("dashboard"))
           && DismissStatus(store, user, theme.template) != 1
  {
  }

  /** `absint` makes a stored -1 count as a dismissal, like a stored 1. */
  lemma MinusOneDismisses(info: Info, store: MetaStore, user: nat, canEdit: bool, screen: Option<string>)
    requires MetaKey(user, DismissedKey(info.themeSlug)) in store
    requires store[MetaKey(user, DismissedKey(info.themeSlug))] == -1
    ensures !NoticeVisible(info, canEdit, screen, store, user)
  {
  }
}

=== FILE: php.dfy ===
/** The usual optional value, used for PHP's "maybe missing" reads. */
module Options {
  datatype Option<+T> = None | Some(value: T)
}

/**
 * The slice of PHP's value model that the theme-info configuration lives in:
 * ordered arrays whose keys are integers or strings, the scalars that appear
 * in a configuration, and the conversions and emptiness tests the code uses.
 */
module Php {
  import opened Options

  /** An array key. PHP stores a string key that spells a canonical integer as that integer. */
  datatype Key = IntKey(n: int) | StrKey(s: string)

  /** A configuration value. Floats, objects and closures do not occur in a configuration. */
  datatype Value =
    | Null
    | Bool(b: bool)
    | Int(i: int)
    | Str(s: string)
    | Arr(entries: seq<Entry>)

  /** One key/value pair of an ordered PHP array. */
  datatype Entry = Entry(key: Key, val: Value)

  // ---------------------------------------------------------------------
  // Decimal integers: PHP's int-to-string conversion and its inverse
  // ---------------------------------------------------------------------

  predicate IsDigit(c: char) { '0' <= c <= '9' }

  predicate AllDigits(s: string) { forall i :: 0 <= i < |s| ==> IsDigit(s[i]) }

  function DigitChar(d: nat): char
    requires d < 10
  {
    ('0' as int + d) as char
  }

  function DigitValue(c: char): nat
    requires IsDigit(c)
  {
    c as int - '0' as int
  }

  /** Decimal spelling of a natural number, without leading zeros. */
  function NatToString(n: nat): (s: string)
    ensures |s| > 0 && AllDigits(s)
    ensures s[0] == '0' <==> n == 0
    ensures n == 0 ==> s == "0"
    decreases n
  {
    if n < 10 then [DigitChar(n)] else NatToString(n / 10) + [DigitChar(n % 10)]
  }

  /** PHP's `(string)` of an int: an optional minus sign, then the decimal digits. */
  function IntToString(n: int): string
  {
    if n < 0 then "-" + NatToString(-n) else NatToString(n)
  }

  /** The value of a string of decimal digits. */
  function DigitsValue(s: string): nat
    requires AllDigits(s)
    decreases |s|
  {
    if |s| == 0 then 0 else DigitsValue(s[..|s| - 1]) * 10 + DigitValue(s[|s| - 1])
  }

  /** Digits with no superfluous leading zero: "0", "7", "42", but not "", "07". */
  predicate IsCanonicalNat(s: string)
  {
    |s| > 0 && AllDigits(s) && (s[0] != '0' || |s| == 1)
  }

  /**
   * The integer a string denotes when PHP would use it as an integer array
   * key: exactly the spellings IntToString produces ("-0", "+1", "01" stay strings).
   */
  function ParseCanonicalInt(s: string): Option<int>
  {
    if IsCanonicalNat(s) then Some(DigitsValue(s))
    else if |s| >= 2 && s[0] == '-' && s[1] != '0' && IsCanonicalNat(s[1..]) then Some(-(DigitsValue(s[1..]) as int))
    else None
  }

  lemma {:induction false} DigitsOfNat(n: nat)
    ensures DigitsValue(NatToString(n)) == n
    decreases n
  {
    var s := NatToString(n);
    if n >= 10 {
      DigitsOfNat(n / 10);
      assert s[..|s| - 1] == NatToString(n / 10);
    }
  }

  lemma {:induction false} LeadingDigitPositive(s: string)
    requires AllDigits(s) && |s| > 0 && s[0] != '0'
    ensures DigitsValue(s) > 0
    decreases |s|
  {
    if |s| > 1 {
      LeadingDigitPositive(s[..|s| - 1]);
    }
  }

  lemma {:induction false} NatOfDigits(s: string)
    requires IsCanonicalNat(s)
    ensures NatToString(DigitsValue(s)) == s
    decreases |s|
  {
    if |s| > 1 {
      var init := s[..|s| - 1];
      LeadingDigitPositive(init);
      NatOfDigits(init);
      assert s == init + [s[|s| - 1]];
    }
  }

  /** Printing an int and reading it back as an array key gives the int. */
  lemma IntStringRoundTrip(n: int)
    ensures ParseCanonicalInt(IntToString(n)) == Some(n)
  {
    if n < 0 {
      var t := IntToString(n);
      assert t[1..] == NatToString(-n);
      DigitsOfNat(-n);
    } else {
      DigitsOfNat(n);
    }
  }

  /** A string PHP reads as an integer key is exactly that integer's spelling. */
  lemma ParsedIntSpellsItself(s: string, n: int)
    requires ParseCanonicalInt(s) == Some(n)
    ensures IntToString(n) == s
  {
    if IsCanonicalNat(s) {
      NatOfDigits(s);
    } else {
      LeadingDigitPositive(s[1..]);
      NatOfDigits(s[1..]);
      assert s == "-" + s[1..];
    }
  }

  // ---------------------------------------------------------------------
  // Keys
  // ---------------------------------------------------------------------

  /** The key PHP actually stores for `$a[$s]` when `$s` is a string. */
  function ArrayKey(s: string): Key
  {
    match ParseCanonicalInt(s)
    case Some(n) => IntKey(n)
    case None => StrKey(s)
  }

  /** A key as PHP prints it (`foreach ($a as $k => ...)` then string concatenation). */
  function KeyString(k: Key): string
  {
    match k
    case IntKey(n) => IntToString(n)
    case StrKey(s) => s
  }

  /** Keys a PHP array can hold: a string key never spells a canonical integer. */
  predicate CanonicalKey(k: Key)
  {
    k.StrKey? ==> ParseCanonicalInt(k.s).None?
  }

  /** Storing a string as a key and printing the key gives the string back. */
  lemma ArrayKeyPrintsBack(s: string)
    ensures CanonicalKey(ArrayKey(s))
    ensures KeyString(ArrayKey(s)) == s
  {
    match ParseCanonicalInt(s)
    case Some(n) => ParsedIntSpellsItself(s, n);
    case None =>
  }

  /** Printing a stored key and using the text as a key reaches the same key. */
  lemma KeyStringReadsBack(k: Key)
    requires CanonicalKey(k)
    ensures ArrayKey(KeyString(k)) == k
  {
    if k.IntKey? {
      IntStringRoundTrip(k.n);
    }
  }

  // ---------------------------------------------------------------------
  // Conversions and tests on values
  // ---------------------------------------------------------------------

  /** PHP's string conversion, as used by `echo`, `.` and `str_replace` on a subject. */
  function ToPhpString(v: Value): string
  {
    match v
    case Null => ""
    case Bool(b) => if b then "1" else ""
    case Int(i) => IntToString(i)
    case Str(s) => s
    case Arr(_) => "Array"
  }

  /** PHP's `empty()` applied to a value that is present. */
  predicate IsEmpty(v: Value)
  {
    match v
    case Null => true
    case Bool(b) => !b
    case Int(i) => i == 0
    case Str(s) => s == "" || s == "0"
    case Arr(es) => |es| == 0
  }

  /** For a scalar, `empty()` holds exactly when its string form is "" or "0". */
  lemma EmptyScalarIsFalsyString(v: Value)
    requires !v.Arr?
    ensures IsEmpty(v) <==> (ToPhpString(v) == "" || ToPhpString(v) == "0")
  {
    if v.Int? {
      if ToPhpString(v) == "0" {
        ParsedIntSpellsItself("0", 0);
        IntStringRoundTrip(v.i);
      }
    }
  }

  /** PHP truthiness of a string, as in `if ( $this->badge_url )`. */
  predicate Truthy(s: string)
  {
    !IsEmpty(Str(s))
  }

  /** `isset( $x )` for a read that may be missing. */
  predicate IsSet(o: Option<Value>)
  {
    o.Some? && o.value != Null
  }

  /** `isset( $x ) && ! empty( $x )`, which is the same as `! empty( $x )`. */
  predicate Filled(o: Option<Value>)
  {
    o.Some? && !IsEmpty(o.value)
  }

  /** The value of a read, null when the key is missing. */
  function ValueOr(o: Option<Value>): Value
  {
    match o
    case Some(v) => v
    case None => Null
  }

  // ---------------------------------------------------------------------
  // Ordered arrays
  // ---------------------------------------------------------------------

  predicate UniqueKeys(es: seq<Entry>)
  {
    forall i, j :: 0 <= i < j < |es| ==> es[i].key != es[j].key
  }

  /** `$a[$k]` on an ordered array: the value stored under `k`, if any. */
  function Lookup(es: seq<Entry>, k: Key): (r: Option<Value>)
    ensures r.None? <==> (forall i :: 0 <= i < |es| ==> es[i].key != k)
    ensures r.Some? ==> exists i :: 0 <= i < |es| && es[i] == Entry(k, r.value)
    decreases |es|
  {
    if |es| == 0 then None
    else if es[0].key == k then Some(es[0].val)
    else Lookup(es[1..], k)
  }

  /** In an array with unique keys, the entry at index i is what its key looks up. */
  lemma {:induction false} LookupAtIndex(es: seq<Entry>, i: nat)
    requires UniqueKeys(es) && i < |es|
    ensures Lookup(es, es[i].key) == Some(es[i].val)
    decreases |es|
  {
    if i > 0 {
      assert es[0].key != es[i].key;
      LookupAtIndex(es[1..], i - 1);
    }
  }

  /** `$a['name']` on a value: a field of an array, nothing on a scalar. */
  function Field(v: Value, name: string): Option<Value>
  {
    match v
    case Arr(es) => Lookup(es, ArrayKey(name))
    case _ => None
  }

  /** `$a[$k] = $v` for a key already present: the value changes in place, order is kept. */
  function Update(es: seq<Entry>, k: Key, v: Value): (r: seq<Entry>)
    ensures |r| == |es|
    ensures forall i :: 0 <= i < |es| ==> r[i].key == es[i].key
  {
    seq(|es|, i requires 0 <= i < |es| => if es[i].key == k then Entry(k, v) else es[i])
  }

  /** After the assignment the key reads the new value and every other key reads as before. */
  lemma {:induction false} LookupAfterUpdate(es: seq<Entry>, k: Key, v: Value, k': Key)
    requires Lookup(es, k).Some?
    ensures Lookup(Update(es, k, v), k') == (if k' == k then Some(v) else Lookup(es, k'))
    decreases |es|
  {
    if |es| > 0 && es[0].key != k {
      assert Update(es, k, v)[1..] == Update(es[1..], k, v);
      LookupAfterUpdate(es[1..], k, v, k');
    } else if |es| > 0 && k' != k {
      assert Update(es, k, v)[1..] == Update(es[1..], k, v);
      if Lookup(es[1..], k).Some? {
        LookupAfterUpdate(es[1..], k, v, k');
      } else {
        UpdateAbsentKey(es[1..], k, v);
      }
    }
  }

  lemma UpdateAbsentKey(es: seq<Entry>, k: Key, v: Value)
    requires Lookup(es, k).None?
    ensures Update(es, k, v) == es
  {
  }

  /**
   * PHP 8's loose `==` between a value and a lower-case word literal, as a
   * `switch` uses it: `true` equals every such word, a string equals only
   * itself, and null, false, integers and arrays equal none.
   */
  predicate LooseEqualsWord(v: Value, w: string)
    requires |w| > 0 && forall i :: 0 <= i < |w| ==> 'a' <= w[i] <= 'z'
  {
    match v
    case Str(s) => s == w
    case Bool(b) => b
    case _ => false
  }

  /** PHP's `absint()` of a stored integer. */
  function Absint(i: int): nat
  {
    if i < 0 then -i else i
  }
}

=== FILE: render.dfy ===
/**
 * The info page: `render_page`, `render_tabs`, `render_current_tab_content`,
 * `render_grid_item(s)` and `render_quick_links`. Output is a sequence of
 * abstract HTML fragments holding the raw strings; the escaping functions
 * the code wraps them in belong to the serialisation of each fragment.
 */
module Render {
  import opened Options
  import opened Php
  import opened Substitution
  import opened Config

  /** What TGM Plugin Activation reports, when that plugin is loaded. */
  datatype Tgmpa = Tgmpa(manageUrl: string, complete: bool, pluginNames: seq<string>)

  /**
   * Facts about the host. `callback(v)` is Some(output) when `v` is callable
   * and calling it prints `output`, and None when `v` is not callable.
   */
  datatype Host = Host(tgmpa: Option<Tgmpa>, callback: Value -> Option<string>)

  datatype Fragment =
    | WrapOpen
    | WrapClose
    | PageHeading(themeName: string, themeVersion: string)
    | WelcomeMessage(text: string)
    | BadgeLinkOpen(href: string)
    | BadgeImage(src: string)
    | BadgeLinkClose
    | QuickLinksOpen
    | QuickLinksClose
    | Anchor(href: string, classes: string, target: string, text: string)
    | NavOpen
    | NavClose
    | NavLink(pagePath: string, tabKey: string, active: bool, title: string)
    | SectionOpen(classes: string)
    | SectionClose
    | RichText(html: string)
    | ManagePlugins(href: string)
    | PluginListOpen
    | PluginItem(name: string)
    | PluginListClose
    | CallbackOutput(text: string)
    | ItemOpen
    | ItemHeading(icon: Option<string>, title: string)
    | ItemDescription(html: string)
    | ItemClose
    | NoticeOpen
    | NoticeBody(themeName: string, pagePath: string, dismissUrl: string)
    | NoticeClose

  /** `$config[name]`. */
  function Get(config: seq<Entry>, name: string): Option<Value>
  {
    Lookup(config, ArrayKey(name))
  }

  // ---------------------------------------------------------------------
  // Tab selection and navigation
  // ---------------------------------------------------------------------

  /** `isset && ! empty ? $config['tabs'] : array()`; a value that is not an array gives no tabs. */
  function Tabs(config: seq<Entry>): seq<Entry>
  {
    match Get(config, "tabs")
    case Some(Arr(es)) => es
    case _ => []
  }

  /** `$current_tab` as the navigation compares it with `===`: the requested string, else the first key. */
  function SelectedKey(tabs: seq<Entry>, request: Option<string>): Key
    requires |tabs| > 0
  {
    match request
    case Some(s) => StrKey(s)
    case None => tabs[0].key
  }

  /** The key `$tabs[ $current_tab ]` reads: PHP turns an integer-like request string into an integer key. */
  function ContentKey(tabs: seq<Entry>, request: Option<string>): (k: Key)
    requires |tabs| > 0
    ensures request.Some? ==> CanonicalKey(k) && KeyString(k) == request.value
    ensures request.None? ==> k == tabs[0].key
  {
    match request
    case Some(s) => ArrayKeyPrintsBack(s); ArrayKey(s)
    case None => tabs[0].key
  }

  /** `$current_tab` as printed into the section's classes. */
  function CurrentLabel(tabs: seq<Entry>, request: Option<string>): string
    requires |tabs| > 0
  {
    match request
    case Some(s) => s
    case None => KeyString(tabs[0].key)
  }

  function TabTitle(tab: Value): string
  {
    ToPhpString(ValueOr(Field(tab, "title")))
  }

  /** One link per tab, in configuration order, marked active when its key is the selected one. */
  function NavLinks(pagePath: string, tabs: seq<Entry>, selected: Key): (r: seq<Fragment>)
    ensures |r| == |tabs|
    ensures forall i :: 0 <= i < |tabs| ==>
      r[i] == NavLink(pagePath, KeyString(tabs[i].key), tabs[i].key == selected, TabTitle(tabs[i].val))
    decreases |tabs|
  {
    if |tabs| == 0 then []
    else
      [NavLink(pagePath, KeyString(tabs[0].key), tabs[0].key == selected, TabTitle(tabs[0].val))]
      + NavLinks(pagePath, tabs[1..], selected)
  }

  /** `render_tabs`. */
  function RenderTabs(info: Info, request: Option<string>): (r: seq<Fragment>)
    ensures |Tabs(info.config)| == 0 ==> r == []
    ensures |Tabs(info.config)| > 0 ==>
      |r| == |Tabs(info.config)| + 2 && r[0] == NavOpen && r[|r| - 1] == NavClose
    ensures |Tabs(info.config)| > 0 ==> forall i :: 0 <= i < |Tabs(info.config)| ==>
      r[i + 1].NavLink? && r[i + 1].tabKey == KeyString(Tabs(info.config)[i].key)
      && (r[i + 1].active <==> Tabs(info.config)[i].key == SelectedKey(Tabs(info.config), request))
    ensures |Tabs(info.config)| > 0 ==>
      r[1..|r| - 1] == NavLinks(info.pagePath, Tabs(info.config), SelectedKey(Tabs(info.config), request))
  {
    var tabs := Tabs(info.config);
    if |tabs| == 0 then []
    else [NavOpen] + NavLinks(info.pagePath, tabs, SelectedKey(tabs, request)) + [NavClose]
  }

  /** Without a request the first tab's link, and only it, is active. */
  lemma DefaultTabIsFirst(info: Info)
    requires |Tabs(info.config)| > 0 && UniqueKeys(Tabs(info.config))
    ensures var r := RenderTabs(info, None);
            r[1].active && forall i :: 2 <= i < |r| - 1 ==> !r[i].active
  {
    var tabs := Tabs(info.config);
    var r := RenderTabs(info, None);
    forall i | 2 <= i < |r| - 1
      ensures !r[i].active
    {
      assert tabs[0].key != tabs[i - 1].key;
    }
  }

  /** With unique tab keys no two navigation links are active. */
  lemma AtMostOneActive(info: Info, request: Option<string>)
    requires UniqueKeys(Tabs(info.config))
    ensures var r := RenderTabs(info, request);
            forall i, j :: 0 <= i < |r| && 0 <= j < |r| && r[i].NavLink? && r[j].NavLink? && r[i].active && r[j].active ==> i == j
  {
    var tabs := Tabs(info.config);
    var r := RenderTabs(info, request);
    if |tabs| > 0 {
      forall i, j | 0 <= i < |r| && 0 <= j < |r| && r[i].NavLink? && r[j].NavLink? && r[i].active && r[j].active
        ensures i == j
      {
        var sel := SelectedKey(tabs, request);
        assert i != 0 && j != 0 && i != |r| - 1 && j != |r| - 1;
        assert tabs[i - 1].key == sel;
        assert tabs[j - 1].key == sel;
      }
    }
  }

  /** A requested key that names no tab leaves every link inactive. */
  lemma UnknownRequestActivatesNothing(info: Info, s: string)
    requires forall i :: 0 <= i < |Tabs(info.config)| ==> Tabs(info.config)[i].key != StrKey(s)
    ensures forall f :: f in RenderTabs(info, Some(s)) && f.NavLink? ==> !f.active
  {
  }

  /**
   * Following a tab's navigation link (`&tab=<key>`) shows that tab's
   * content, but marks its link active only when the key is a string: an
   * integer key comes back as a string and fails the `===` comparison.
   */
  lemma FollowingNavLink(info: Info, i: nat)
    requires UniqueKeys(Tabs(info.config)) && i < |Tabs(info.config)|
    requires forall j :: 0 <= j < |Tabs(info.config)| ==> CanonicalKey(Tabs(info.config)[j].key)
    ensures var tabs := Tabs(info.config);
            Lookup(tabs, ContentKey(tabs, Some(KeyString(tabs[i].key)))) == Some(tabs[i].val)
    ensures var tabs := Tabs(info.config);
            RenderTabs(info, Some(KeyString(tabs[i].key)))[i + 1].active <==> tabs[i].key.StrKey?
  {
    var tabs := Tabs(info.config);
    KeyStringReadsBack(tabs[i].key);
    LookupAtIndex(tabs, i);
  }

  // ---------------------------------------------------------------------
  // The current tab's content
  // ---------------------------------------------------------------------

  /** The section's class attribute, built from the current tab and its render mode. */
  function SectionClasses(current: string, mode: Value): string
  {
    "ti-section ti-section-" + current + " ti-render-mode-" + ToPhpString(mode)
    + (if mode == Str("grid") then " ti-grid" else "")
  }

  /** The tab's own content, substituted, for modes `content` and `tgmpa`. */
  function ContentText(tab: Value, vals: ThemeValues): (r: seq<Fragment>)
    ensures |r| <= 1 && forall f :: f in r ==> f.RichText?
    ensures r != [] <==> IsSet(Field(tab, "content"))
    ensures r != [] ==> r[0].html == Filter(vals, ToPhpString(Field(tab, "content").value))
  {
    var c := Field(tab, "content");
    if IsSet(c) then [RichText(Filter(vals, ToPhpString(c.value)))] else []
  }

  /** The `<ul class="plugin-list">` of a `tgmpa` tab: one entry per plugin, in order. */
  function PluginList(names: seq<string>): (r: seq<Fragment>)
    ensures |names| == 0 ==> r == []
    ensures |names| > 0 ==> |r| == |names| + 2 && r[0] == PluginListOpen && r[|r| - 1] == PluginListClose
    ensures forall i :: 0 <= i < |names| ==> r[i + 1] == PluginItem(names[i])
    ensures forall f :: f in r ==> !f.ManagePlugins?
  {
    if |names| > 0
    then [PluginListOpen] + seq(|names|, i requires 0 <= i < |names| => PluginItem(names[i])) + [PluginListClose]
    else []
  }

  /** The TGM Plugin Activation part of a `tgmpa` tab. */
  function PluginChecklist(t: Option<Tgmpa>): (r: seq<Fragment>)
    ensures t.None? ==> r == []
    ensures t.Some? ==> (ManagePlugins(t.value.manageUrl) in r <==> !t.value.complete)
    ensures t.Some? ==> forall i :: 0 <= i < |t.value.pluginNames| ==> PluginItem(t.value.pluginNames[i]) in r
    ensures t.Some? ==>
      r == (if t.value.complete then [] else [ManagePlugins(t.value.manageUrl)]) + PluginList(t.value.pluginNames)
  {
    match t
    case None => []
    case Some(tg) =>
      var manage := if !tg.complete then [ManagePlugins(tg.manageUrl)] else [];
      var list := PluginList(tg.pluginNames);
      PluginChecklistParts(manage, list, tg.pluginNames);
      manage + list
  }

  lemma PluginChecklistParts(manage: seq<Fragment>, list: seq<Fragment>, names: seq<string>)
    requires forall f :: f in list ==> !f.ManagePlugins?
    requires |names| > 0 ==> |list| == |names| + 2
    requires forall i :: 0 <= i < |names| ==> list[i + 1] == PluginItem(names[i])
    ensures forall f :: f in manage + list && f.ManagePlugins? ==> f in manage
    ensures forall i :: 0 <= i < |names| ==> PluginItem(names[i]) in manage + list
  {
    forall i | 0 <= i < |names|
      ensures PluginItem(names[i]) in manage + list
    {
      assert (manage + list)[|manage| + i + 1] == list[i + 1];
    }
  }

  /** A `custom` tab prints what its callback prints, when it has a callable one. */
  function CustomOutput(tab: Value, host: Host): (r: seq<Fragment>)
    ensures !IsSet(Field(tab, "render_callback")) ==> r == []
    ensures IsSet(Field(tab, "render_callback")) && host.callback(Field(tab, "render_callback").value).None? ==> r == []
    ensures IsSet(Field(tab, "render_callback")) && host.callback(Field(tab, "render_callback").value).Some? ==>
      r == [CallbackOutput(host.callback(Field(tab, "render_callback").value).value)]
  {
    var cb := Field(tab, "render_callback");
    if IsSet(cb) then
      match host.callback(cb.value)
      case Some(out) => [CallbackOutput(out)]
      case None => []
    else []
  }

  /** `is_new_tab` is `true` or the string '1'. */
  predicate OpensNewTab(o: Option<Value>)
  {
    o == Some(Bool(true)) || o == Some(Str("1"))
  }

  /** The button class of a grid item: `isset && ! empty`, then strict comparison. */
  function GridButtonClass(o: Option<Value>): (c: string)
    ensures c == "button button-primary" <==> o == Some(Str("primary"))
    ensures c == "button button-secondary" <==> o == Some(Str("secondary"))
    ensures c == "" <==> o != Some(Str("primary")) && o != Some(Str("secondary"))
  {
    if Filled(o) then
      if o.value == Str("primary") then "button button-primary"
      else if o.value == Str("secondary") then "button button-secondary"
      else ""
    else ""
  }

  /** The button class of a quick link: `isset`, then strict comparison. */
  function QuickLinkClass(o: Option<Value>): string
  {
    if IsSet(o) then
      if o.value == Str("primary") then "button button-primary"
      else if o.value == Str("secondary") then "button button-secondary"
      else ""
    else ""
  }

  /** Quick links and grid buttons map `button_type` to the same class. */
  lemma QuickLinksShareButtonClasses(o: Option<Value>)
    ensures QuickLinkClass(o) == GridButtonClass(o)
  {
  }

  /** The optional call-to-action button of a grid item. */
  function GridButton(item: Value, vals: ThemeValues): (r: seq<Fragment>)
    ensures |r| <= 1
    ensures forall f :: f in r ==> f.Anchor?
    ensures |r| == 1 <==> Filled(Field(item, "button_text")) && Filled(Field(item, "button_url"))
    ensures |r| == 1 ==> (r[0].target == "_blank" <==> OpensNewTab(Field(item, "is_new_tab")))
    ensures |r| == 1 ==> (r[0].target == "_self" <==> !OpensNewTab(Field(item, "is_new_tab")))
    ensures |r| == 1 ==> r[0].classes == GridButtonClass(Field(item, "button_type"))
    ensures |r| == 1 ==> r[0].href == Filter(vals, ToPhpString(Field(item, "button_url").value))
    ensures |r| == 1 ==> r[0].text == Filter(vals, ToPhpString(Field(item, "button_text").value))
  {
    var text := Field(item, "button_text");
    var url := Field(item, "button_url");
    if Filled(text) && Filled(url) then
      var target := if OpensNewTab(Field(item, "is_new_tab")) then "_blank" else "_self";
      [Anchor(Filter(vals, ToPhpString(url.value)), GridButtonClass(Field(item, "button_type")), target,
              Filter(vals, ToPhpString(text.value)))]
    else []
  }

  /** The `<h3>` of a grid item, with its icon when one is filled. */
  function GridHeading(item: Value, vals: ThemeValues): (r: seq<Fragment>)
    ensures |r| <= 1 && forall f :: f in r ==> f.ItemHeading?
    ensures |r| == 1 <==> Filled(Field(item, "title"))
    ensures |r| == 1 ==> r[0].title == Filter(vals, ToPhpString(Field(item, "title").value))
    ensures |r| == 1 ==> (r[0].icon.Some? <==> Filled(Field(item, "icon")))
    ensures |r| == 1 && r[0].icon.Some? ==> r[0].icon.value == ToPhpString(Field(item, "icon").value)
  {
    var title := Field(item, "title");
    var icon := Field(item, "icon");
    if Filled(title)
    then [ItemHeading(if Filled(icon) then Some(ToPhpString(icon.value)) else None, Filter(vals, ToPhpString(title.value)))]
    else []
  }

  /** The `<p>` of a grid item: its substituted description, when filled. */
  function GridDescription(item: Value, vals: ThemeValues): (r: seq<Fragment>)
    ensures |r| <= 1 && forall f :: f in r ==> f.ItemDescription?
    ensures |r| == 1 <==> Filled(Field(item, "description"))
    ensures |r| == 1 ==> r[0].html == Filter(vals, ToPhpString(Field(item, "description").value))
  {
    var desc := Field(item, "description");
    if Filled(desc) then [ItemDescription(Filter(vals, ToPhpString(desc.value)))] else []
  }

  /** Where a fragment may stand inside a grid item: heading, then description, then button. */
  function ItemRank(f: Fragment): nat
  {
    match f
    case ItemOpen => 0
    case ItemHeading(_, _) => 1
    case ItemDescription(_) => 2
    case Anchor(_, _, _, _) => 3
    case ItemClose => 4
    case _ => 5
  }

  /** `render_grid_item`: heading, description and button, each only when filled. */
  function RenderGridItem(item: Value, vals: ThemeValues): (r: seq<Fragment>)
    ensures |r| >= 2 && r[0] == ItemOpen && r[|r| - 1] == ItemClose
  {
    [ItemOpen] + GridHeading(item, vals) + GridDescription(item, vals) + GridButton(item, vals) + [ItemClose]
  }

  /**
   * A grid item holds at most one heading, description and button, in that
   * order; each is present exactly when its fields are filled, and each is
   * the fragment its part renders.
   */
  lemma GridItemLayout(item: Value, vals: ThemeValues)
    ensures var r := RenderGridItem(item, vals);
            forall i, j :: 0 <= i < j < |r| ==> ItemRank(r[i]) < ItemRank(r[j])
    ensures var r := RenderGridItem(item, vals);
            && ((exists f :: f in r && f.ItemHeading?) <==> Filled(Field(item, "title")))
            && ((exists f :: f in r && f.ItemDescription?) <==> Filled(Field(item, "description")))
            && ((exists f :: f in r && f.Anchor?) <==> Filled(Field(item, "button_text")) && Filled(Field(item, "button_url")))
    ensures var r := RenderGridItem(item, vals);
            && (forall f :: f in r && f.ItemHeading? ==> f in GridHeading(item, vals))
            && (forall f :: f in r && f.ItemDescription? ==> f in GridDescription(item, vals))
            && (forall f :: f in r && f.Anchor? ==> f in GridButton(item, vals))
  {
    GridItemParts(GridHeading(item, vals), GridDescription(item, vals), GridButton(item, vals));
  }

  lemma GridItemParts(h: seq<Fragment>, d: seq<Fragment>, b: seq<Fragment>)
    requires |h| <= 1 && forall f :: f in h ==> f.ItemHeading?
    requires |d| <= 1 && forall f :: f in d ==> f.ItemDescription?
    requires |b| <= 1 && forall f :: f in b ==> f.Anchor?
    ensures var r := [ItemOpen] + h + d + b + [ItemClose];
            forall i, j :: 0 <= i < j < |r| ==> ItemRank(r[i]) < ItemRank(r[j])
    ensures var r := [ItemOpen] + h + d + b + [ItemClose];
            && ((exists f :: f in r && f.ItemHeading?) <==> |h| > 0)
            && ((exists f :: f in r && f.ItemDescription?) <==> |d| > 0)
            && ((exists f :: f in r && f.Anchor?) <==> |b| > 0)
    ensures var r := [ItemOpen] + h + d + b + [ItemClose];
            && (forall f :: f in r && f.ItemHeading? ==> f in h)
            && (forall f :: f in r && f.ItemDescription? ==> f in d)
            && (forall f :: f in r && f.Anchor? ==> f in b)
  {
    GridItemOrder(h, d, b);
    GridItemPresence(h, d, b);
  }

  lemma GridItemOrder(h: seq<Fragment>, d: seq<Fragment>, b: seq<Fragment>)
    requires |h| <= 1 && forall f :: f in h ==> f.ItemHeading?
    requires |d| <= 1 && forall f :: f in d ==> f.ItemDescription?
    requires |b| <= 1 && forall f :: f in b ==> f.Anchor?
    ensures var r := [ItemOpen] + h + d + b + [ItemClose];
            forall i, j :: 0 <= i < j < |r| ==> ItemRank(r[i]) < ItemRank(r[j])
  {
    var r := [ItemOpen] + h + d + b + [ItemClose];
    var n := |h|;
    var m := |h| + |d|;
    var p := |h| + |d| + |b|;
    forall k | 0 <= k < |r|
      ensures ItemRank(r[k]) == (if k == 0 then 0 else if k <= n then 1 else if k <= m then 2 else if k <= p then 3 else 4)
    {
      if k == 0 {
      } else if k <= n {
        assert r[k] == h[k - 1];
        assert h[k - 1] in h;
      } else if k <= m {
        assert r[k] == d[k - 1 - n];
        assert d[k - 1 - n] in d;
      } else if k <= p {
        assert r[k] == b[k - 1 - m];
        assert b[k - 1 - m] in b;
      } else {
        assert r[k] == ItemClose;
      }
    }
  }

  lemma GridItemPresence(h: seq<Fragment>, d: seq<Fragment>, b: seq<Fragment>)
    requires forall f :: f in h ==> f.ItemHeading?
    requires forall f :: f in d ==> f.ItemDescription?
    requires forall f :: f in b ==> f.Anchor?
    ensures var r := [ItemOpen] + h + d + b + [ItemClose];
            && ((exists f :: f in r && f.ItemHeading?) <==> |h| > 0)
            && ((exists f :: f in r && f.ItemDescription?) <==> |d| > 0)
            && ((exists f :: f in r && f.Anchor?) <==> |b| > 0)
    ensures var r := [ItemOpen] + h + d + b + [ItemClose];
            && (forall f :: f in r && f.ItemHeading? ==> f in h)
            && (forall f :: f in r && f.ItemDescription? ==> f in d)
            && (forall f :: f in r && f.Anchor? ==> f in b)
  {
    var r := [ItemOpen] + h + d + b + [ItemClose];
    forall f | f in r
      ensures f == ItemOpen || f in h || f in d || f in b || f == ItemClose
    {
    }
    if |b| > 0 {
      assert r[1 + |h| + |d|] == b[0];
      assert b[0] in r;
    }
    if |d| > 0 {
      assert r[1 + |h|] == d[0];
      assert d[0] in r;
    }
    if |h| > 0 {
      assert r[1] == h[0];
      assert h[0] in r;
    }
  }

  /** `render_grid_items`: every item, in order. */
  function GridItems(items: seq<Entry>, vals: ThemeValues): (r: seq<Fragment>)
    ensures |items| == 0 <==> r == []
    ensures |items| > 0 ==> |r| >= 2 && r[0] == ItemOpen && r[|r| - 1] == ItemClose
    decreases |items|
  {
    if |items| == 0 then [] else RenderGridItem(items[0].val, vals) + GridItems(items[1..], vals)
  }

  /** The fragments of several parts, one after the other. */
  function Concat(parts: seq<seq<Fragment>>): seq<Fragment>
    decreases |parts|
  {
    if |parts| == 0 then [] else parts[0] + Concat(parts[1..])
  }

  /** Each item's own rendering, in configuration order. */
  function ItemRenderings(items: seq<Entry>, vals: ThemeValues): (r: seq<seq<Fragment>>)
    ensures |r| == |items|
    decreases |items|
  {
    if |items| == 0 then [] else [RenderGridItem(items[0].val, vals)] + ItemRenderings(items[1..], vals)
  }

  /** The k-th rendering is the k-th item's. */
  lemma {:induction false} ItemRenderingAt(items: seq<Entry>, vals: ThemeValues, k: nat)
    requires k < |items|
    ensures ItemRenderings(items, vals)[k] == RenderGridItem(items[k].val, vals)
    decreases k
  {
    if k > 0 {
      ItemRenderingAt(items[1..], vals, k - 1);
    }
  }

  /** The grid is every item's own rendering, one after the other. */
  lemma {:induction false} GridItemsInOrder(items: seq<Entry>, vals: ThemeValues)
    ensures GridItems(items, vals) == Concat(ItemRenderings(items, vals))
    decreases |items|
  {
    if |items| > 0 {
      GridItemsInOrder(items[1..], vals);
      assert ItemRenderings(items, vals)[1..] == ItemRenderings(items[1..], vals);
    }
  }

  lemma {:induction false} ConcatAppend(a: seq<seq<Fragment>>, b: seq<seq<Fragment>>)
    ensures Concat(a + b) == Concat(a) + Concat(b)
    decreases |a|
  {
    if |a| == 0 {
      assert a + b == b;
    } else {
      assert (a + b)[1..] == a[1..] + b;
      ConcatAppend(a[1..], b);
    }
  }

  lemma {:induction false} RenderingsAppend(a: seq<Entry>, b: seq<Entry>, vals: ThemeValues)
    ensures ItemRenderings(a + b, vals) == ItemRenderings(a, vals) + ItemRenderings(b, vals)
    decreases |a|
  {
    if |a| == 0 {
      assert a + b == b;
    } else {
      var x := RenderGridItem(a[0].val, vals);
      RenderingsAppend(a[1..], b, vals);
      RenderingsStep(a, b, vals);
      RenderingsCons(a, vals);
      ConsAppend(x, ItemRenderings(a[1..], vals), ItemRenderings(b, vals));
    }
  }

  lemma RenderingsCons(items: seq<Entry>, vals: ThemeValues)
    requires |items| > 0
    ensures ItemRenderings(items, vals) == [RenderGridItem(items[0].val, vals)] + ItemRenderings(items[1..], vals)
  {
  }

  lemma ConsAppend(x: seq<Fragment>, p: seq<seq<Fragment>>, q: seq<seq<Fragment>>)
    ensures [x] + (p + q) == ([x] + p) + q
  {
  }

  lemma RenderingsStep(a: seq<Entry>, b: seq<Entry>, vals: ThemeValues)
    requires |a| > 0
    ensures ItemRenderings(a + b, vals) == [RenderGridItem(a[0].val, vals)] + ItemRenderings(a[1..] + b, vals)
  {
    var ab := a + b;
    assert ab[0] == a[0] && ab[1..] == a[1..] + b;
    RenderingsCons(ab, vals);
  }

  /** Rendering two runs of items renders the first run, then the second. */
  lemma GridItemsAppend(a: seq<Entry>, b: seq<Entry>, vals: ThemeValues)
    ensures GridItems(a + b, vals) == GridItems(a, vals) + GridItems(b, vals)
  {
    RenderingsAppend(a, b, vals);
    GridItemsInOrder(a, vals);
    GridItemsInOrder(b, vals);
    GridItemsInOrder(a + b, vals);
    ConcatAppend(ItemRenderings(a, vals), ItemRenderings(b, vals));
  }

  /** A `grid` tab: its items, when `items` is filled; a non-array prints nothing. */
  function GridSection(tab: Value, vals: ThemeValues): seq<Fragment>
  {
    var items := Field(tab, "items");
    if Filled(items) && items.value.Arr? then GridItems(items.value.entries, vals) else []
  }

  /**
   * The switch on `render_mode`, with PHP 8's loose comparison: a string
   * selects only its own case, `true` matches the first case, and every
   * other value reaches the empty default.
   */
  function TabBody(tab: Value, host: Host, vals: ThemeValues): (r: seq<Fragment>)
    ensures var mode := ValueOr(Field(tab, "render_mode"));
      && (mode == Str("content") || mode == Bool(true) ==> r == ContentText(tab, vals))
      && (mode == Str("tgmpa") ==> r == ContentText(tab, vals) + PluginChecklist(host.tgmpa))
      && (mode == Str("custom") ==> r == CustomOutput(tab, host))
      && (mode == Str("grid") ==> r == GridSection(tab, vals))
      && (!mode.Str? && mode != Bool(true) ==> r == [])
      && (mode.Str? && mode.s !in {"content", "tgmpa", "custom", "grid"} ==> r == [])
  {
    ModeBody(ValueOr(Field(tab, "render_mode")), tab, host, vals)
  }

  /** Which case labels a mode value loosely equals. */
  lemma SwitchCases(mode: Value)
    ensures LooseEqualsWord(mode, "content") <==> mode == Str("content") || mode == Bool(true)
    ensures LooseEqualsWord(mode, "tgmpa") <==> mode == Str("tgmpa") || mode == Bool(true)
    ensures LooseEqualsWord(mode, "custom") <==> mode == Str("custom") || mode == Bool(true)
    ensures LooseEqualsWord(mode, "grid") <==> mode == Str("grid") || mode == Bool(true)
  {
  }

  /** The cases of the switch, for the mode value read from the tab. */
  function ModeBody(mode: Value, tab: Value, host: Host, vals: ThemeValues): (r: seq<Fragment>)
    ensures mode == Str("content") || mode == Bool(true) ==> r == ContentText(tab, vals)
    ensures mode == Str("tgmpa") ==> r == ContentText(tab, vals) + PluginChecklist(host.tgmpa)
    ensures mode == Str("custom") ==> r == CustomOutput(tab, host)
    ensures mode == Str("grid") ==> r == GridSection(tab, vals)
    ensures !mode.Str? && mode != Bool(true) ==> r == []
    ensures mode.Str? && mode.s !in {"content", "tgmpa", "custom", "grid"} ==> r == []
  {
    SwitchCases(mode);
    if LooseEqualsWord(mode, "content") then ContentText(tab, vals)
    else if LooseEqualsWord(mode, "tgmpa") then ContentText(tab, vals) + PluginChecklist(host.tgmpa)
    else if LooseEqualsWord(mode, "custom") then CustomOutput(tab, host)
    else if LooseEqualsWord(mode, "grid") then GridSection(tab, vals)
    else []
  }

  /**
   * `render_current_tab_content`. A requested key that names no tab reads
   * its mode as null: the section is printed with an empty mode and no body.
   */
  function RenderCurrentTabContent(info: Info, request: Option<string>, host: Host): (r: seq<Fragment>)
    ensures |Tabs(info.config)| == 0 ==> r == []
    ensures |Tabs(info.config)| > 0 ==> |r| >= 2 && r[|r| - 1] == SectionClose
    ensures |Tabs(info.config)| > 0 ==>
      var tab := ValueOr(Lookup(Tabs(info.config), ContentKey(Tabs(info.config), request)));
      r[0] == SectionOpen(SectionClasses(CurrentLabel(Tabs(info.config), request), ValueOr(Field(tab, "render_mode"))))
    ensures |Tabs(info.config)| > 0 ==>
      var tab := ValueOr(Lookup(Tabs(info.config), ContentKey(Tabs(info.config), request)));
      r[1..|r| - 1] == TabBody(tab, host, ValuesOf(info))
  {
    var tabs := Tabs(info.config);
    if |tabs| == 0 then []
    else
      var tab := ValueOr(Lookup(tabs, ContentKey(tabs, request)));
      var mode := ValueOr(Field(tab, "render_mode"));
      [SectionOpen(SectionClasses(CurrentLabel(tabs, request), mode))] + TabBody(tab, host, ValuesOf(info)) + [SectionClose]
  }

  /** A request naming no tab gives an empty section whose mode class is empty. */
  lemma UnknownTabRendersEmptySection(info: Info, s: string, host: Host)
    requires |Tabs(info.config)| > 0
    requires Lookup(Tabs(info.config), ArrayKey(s)).None?
    ensures RenderCurrentTabContent(info, Some(s), host)
      == [SectionOpen("ti-section ti-section-" + s + " ti-render-mode-"), SectionClose]
  {
    var base := "ti-section ti-section-" + s + " ti-render-mode-";
    assert SectionClasses(s, Null) == base + "" + "";
    assert base + "" + "" == base;
  }

  /** A tab whose mode is none of the four known ones renders an empty section. */
  lemma OtherModeRendersEmptySection(info: Info, request: Option<string>, host: Host)
    requires |Tabs(info.config)| > 0
    requires var tab := ValueOr(Lookup(Tabs(info.config), ContentKey(Tabs(info.config), request)));
             var mode := ValueOr(Field(tab, "render_mode"));
             (mode.Str? && mode.s !in {"content", "tgmpa", "custom", "grid"}) || (!mode.Str? && mode != Bool(true))
    ensures |RenderCurrentTabContent(info, request, host)| == 2
  {
  }

  /** A `custom` tab whose callback is missing or not callable renders an empty section. */
  lemma CustomWithoutCallbackIsEmpty(info: Info, request: Option<string>, host: Host)
    requires |Tabs(info.config)| > 0
    requires var tab := ValueOr(Lookup(Tabs(info.config), ContentKey(Tabs(info.config), request)));
             Field(tab, "render_mode") == Some(Str("custom"))
             && (!IsSet(Field(tab, "render_callback")) || host.callback(Field(tab, "render_callback").value).None?)
    ensures |RenderCurrentTabContent(info, request, host)| == 2
  {
  }

  /** Only the `grid` mode adds the ` ti-grid` class. */
  lemma GridClassOnlyForGrid(current: string, m: string)
    ensures SectionClasses(current, Str(m)) == "ti-section ti-section-" + current + " ti-render-mode-" + m
                                             + (if m == "grid" then " ti-grid" else "")
  {
  }

  /**
   * PHP turns the request string "0" into the integer key 0, while the
   * navigation compares it with `===`: the content of tab 0 is shown but
   * no navigation link is active.
   */
  lemma IntegerKeyRequestQuirk(info: Info, tab: Value)
    requires forall i :: 0 <= i < |Tabs(info.config)| ==> CanonicalKey(Tabs(info.config)[i].key)
    requires Lookup(Tabs(info.config), IntKey(0)) == Some(tab)
    ensures |Tabs(info.config)| > 0
    ensures Lookup(Tabs(info.config), ContentKey(Tabs(info.config), Some("0"))) == Some(tab)
    ensures forall f :: f in RenderTabs(info, Some("0")) && f.NavLink? ==> !f.active
  {
    IntStringRoundTrip(0);
    assert ArrayKey("0") == IntKey(0);
    UnknownRequestActivatesNothing(info, "0");
  }

  // ---------------------------------------------------------------------
  // Quick links and the page
  // ---------------------------------------------------------------------

  /** One quick link: it opens in a new tab and shares the grid buttons' classes. */
  function QuickLinkAnchor(link: Value): (r: Fragment)
    ensures r.Anchor? && r.target == "_blank"
    ensures r.classes == GridButtonClass(Field(link, "button_type"))
    ensures r.href == ToPhpString(ValueOr(Field(link, "url")))
    ensures r.text == ToPhpString(ValueOr(Field(link, "text")))
  {
    QuickLinksShareButtonClasses(Field(link, "button_type"));
    Anchor(ToPhpString(ValueOr(Field(link, "url"))), QuickLinkClass(Field(link, "button_type")), "_blank",
           ToPhpString(ValueOr(Field(link, "text"))))
  }

  /** `render_quick_links`: one link per entry, always opening in a new tab. */
  function RenderQuickLinks(config: seq<Entry>): (r: seq<Fragment>)
    ensures var ql := ValueOr(Get(config, "quick_links"));
      && (IsEmpty(ql) <==> r == [])
      && (forall f :: f in r && f.Anchor? ==> f.target == "_blank")
      && (ql.Arr? && r != [] ==>
            |r| == |ql.entries| + 2 && r[0] == QuickLinksOpen && r[|r| - 1] == QuickLinksClose
            && forall i :: 0 <= i < |ql.entries| ==> r[i + 1] == QuickLinkAnchor(ql.entries[i].val))
      && (!ql.Arr? && r != [] ==> r == [QuickLinksOpen, QuickLinksClose])
  {
    QuickLinkBlock(ValueOr(Get(config, "quick_links")))
  }

  /** The `<p class="quick-links">` for the value read from the configuration. */
  function QuickLinkBlock(ql: Value): (r: seq<Fragment>)
    ensures IsEmpty(ql) <==> r == []
    ensures forall f :: f in r && f.Anchor? ==> f.target == "_blank"
    ensures ql.Arr? && r != [] ==>
      |r| == |ql.entries| + 2 && r[0] == QuickLinksOpen && r[|r| - 1] == QuickLinksClose
      && forall i :: 0 <= i < |ql.entries| ==> r[i + 1] == QuickLinkAnchor(ql.entries[i].val)
    ensures !ql.Arr? && r != [] ==> r == [QuickLinksOpen, QuickLinksClose]
  {
    if IsEmpty(ql) then []
    else
      var links := if ql.Arr? then seq(|ql.entries|, i requires 0 <= i < |ql.entries| => QuickLinkAnchor(ql.entries[i].val)) else [];
      [QuickLinksOpen] + links + [QuickLinksClose]
  }

  /** Every link printed comes from one entry of the quick links. */
  lemma QuickLinkOrigin(config: seq<Entry>, f: Fragment)
    requires f in RenderQuickLinks(config) && f.Anchor?
    ensures var ql := ValueOr(Get(config, "quick_links"));
            ql.Arr? && exists i :: 0 <= i < |ql.entries| && f == QuickLinkAnchor(ql.entries[i].val)
  {
    var r := RenderQuickLinks(config);
    var ql := ValueOr(Get(config, "quick_links"));
    var m :| 0 <= m < |r| && r[m] == f;
    assert 0 < m < |r| - 1;
    assert ql.Arr?;
    assert f == QuickLinkAnchor(ql.entries[m - 1].val);
  }

  /** The badge image, wrapped in a link to the author's site when there is one. */
  function Badge(src: string, badgeUrl: string): (r: seq<Fragment>)
    ensures BadgeImage(src) in r
    ensures BadgeLinkOpen(badgeUrl) in r <==> Truthy(badgeUrl)
    ensures forall f :: f in r ==> f.BadgeImage? || f.BadgeLinkOpen? || f.BadgeLinkClose?
    ensures Truthy(badgeUrl) ==> r == [BadgeLinkOpen(badgeUrl), BadgeImage(src), BadgeLinkClose]
    ensures !Truthy(badgeUrl) ==> r == [BadgeImage(src)]
  {
    if Truthy(badgeUrl) then [BadgeLinkOpen(badgeUrl), BadgeImage(src), BadgeLinkClose] else [BadgeImage(src)]
  }

  /** The welcome message and the badge, between the heading and the quick links. */
  function Intro(info: Info): (r: seq<Fragment>)
    ensures Filled(Get(info.config, "welcome_content")) ==>
      |r| > 0 && r[0] == WelcomeMessage(ToPhpString(Get(info.config, "welcome_content").value))
    ensures !Filled(Get(info.config, "welcome_content")) ==> forall f :: f in r ==> !f.WelcomeMessage?
    ensures forall f :: f in r && f.WelcomeMessage? ==>
      Filled(Get(info.config, "welcome_content")) && f.text == ToPhpString(Get(info.config, "welcome_content").value)
    ensures (exists f :: f in r && f.BadgeImage?) <==> Filled(Get(info.config, "badge_image_url"))
    ensures Filled(Get(info.config, "badge_image_url")) ==>
      BadgeImage(ToPhpString(Get(info.config, "badge_image_url").value)) in r
      && (BadgeLinkOpen(info.badgeUrl) in r <==> Truthy(info.badgeUrl))
    ensures var nw := if Filled(Get(info.config, "welcome_content")) then 1 else 0;
      && nw <= |r|
      && (Filled(Get(info.config, "badge_image_url")) ==>
            r[nw..] == Badge(ToPhpString(Get(info.config, "badge_image_url").value), info.badgeUrl))
      && (!Filled(Get(info.config, "badge_image_url")) ==> |r| == nw)
  {
    var welcome := Get(info.config, "welcome_content");
    var badge := Get(info.config, "badge_image_url");
    var w := if Filled(welcome) then [WelcomeMessage(ToPhpString(welcome.value))] else [];
    var b := if Filled(badge) then Badge(ToPhpString(badge.value), info.badgeUrl) else [];
    assert forall f :: f in w + b ==> f in w || f in b;
    assert Filled(badge) ==> BadgeImage(ToPhpString(badge.value)) in w + b;
    assert Filled(badge) && Truthy(info.badgeUrl) ==> BadgeLinkOpen(info.badgeUrl) in w + b;
    w + b
  }

  lemma Framed(head: seq<Fragment>, intro: seq<Fragment>, body: seq<Fragment>, last: Fragment)
    requires |head| == 2
    ensures var r := head + intro + body + [last];
            |r| >= 3 && r[0] == head[0] && r[1] == head[1] && r[|r| - 1] == last
            && (|intro| > 0 ==> r[2] == intro[0])
  {
  }

  /** `render_page`. */
  function RenderPage(info: Info, request: Option<string>, host: Host): (r: seq<Fragment>)
    ensures |r| >= 3 && r[0] == WrapOpen && r[1] == PageHeading(info.themeName, info.themeVersion) && r[|r| - 1] == WrapClose
    ensures Filled(Get(info.config, "welcome_content")) ==>
      r[2] == WelcomeMessage(ToPhpString(Get(info.config, "welcome_content").value))
  {
    var intro := Intro(info);
    var body := RenderQuickLinks(info.config) + RenderTabs(info, request) + RenderCurrentTabContent(info, request, host);
    var head := [WrapOpen, PageHeading(info.themeName, info.themeVersion)];
    Framed(head, intro, body, WrapClose);
    head + intro + body + [WrapClose]
  }

  // ---------------------------------------------------------------------
  // No placeholder survives into the page
  // ---------------------------------------------------------------------

  /** A prepared value prints without placeholders when its string leaves are templates. */
  lemma PreparedTextClean(vals: ThemeValues, v: Value)
    requires BraceFreeValues(vals)
    requires TemplateLeaves(v, 0)
    ensures NoPlaceholder(ToPhpString(FilterValue(vals, v)))
    ensures NoPlaceholder(ToPhpString(PrepareValue(vals, v)))
  {
    if v.Arr? {
      forall k
        ensures !Contains("Array", TokenText(k))
      {
        BraceFreeHasNoToken("Array", k);
      }
    } else {
      FilterTemplateIdempotent(vals, ToPhpString(v));
    }
  }

  /** Reading a field of a prepared item reads the substituted field. */
  lemma {:induction false} PreparedFieldLookup(vals: ThemeValues, es: seq<Entry>, k: Key)
    ensures var o := Lookup(es, k);
            Lookup(PrepareItem(vals, Arr(es)).entries, k) == if o.Some? then Some(FilterValue(vals, o.value)) else None
    decreases |es|
  {
    if |es| > 0 {
      assert PrepareItem(vals, Arr(es)).entries[1..] == PrepareItem(vals, Arr(es[1..])).entries;
      PreparedFieldLookup(vals, es[1..], k);
    }
  }

  /** The text of a quick link built from a prepared entry holds no placeholder. */
  lemma QuickLinkTextClean(vals: ThemeValues, item: Value)
    requires BraceFreeValues(vals)
    requires TemplateLeaves(item, 1)
    ensures NoPlaceholder(QuickLinkAnchor(PrepareItem(vals, item)).text)
    ensures NoPlaceholder(QuickLinkAnchor(PrepareItem(vals, item)).href)
  {
    QuickLinkFieldClean(vals, item, "text");
    QuickLinkFieldClean(vals, item, "url");
  }

  /** Any field of a prepared quick link prints without placeholders. */
  lemma QuickLinkFieldClean(vals: ThemeValues, item: Value, name: string)
    requires BraceFreeValues(vals)
    requires TemplateLeaves(item, 1)
    ensures NoPlaceholder(ToPhpString(ValueOr(Field(PrepareItem(vals, item), name))))
  {
    if item.Arr? {
      var k := ArrayKey(name);
      PreparedFieldLookup(vals, item.entries, k);
      var o := Lookup(item.entries, k);
      if o.Some? {
        var j :| 0 <= j < |item.entries| && item.entries[j] == Entry(k, o.value);
        assert TemplateLeaves(item.entries[j].val, 0);
        PreparedTextClean(vals, o.value);
      }
    }
  }

  /**
   * After `init`, with a welcome text and quick links written as templates
   * and theme values without braces, neither the welcome message nor any
   * quick link's text on the page still holds a placeholder.
   */
  lemma SetupLeavesNoPlaceholder(config: seq<Entry>, theme: ActiveTheme)
    requires BraceFreeValues(ValuesOf(Configure(config, theme)))
    requires TemplateLeaves(ValueOr(Lookup(config, StrKey("welcome_content"))), 0)
    requires TemplateLeaves(ValueOr(Lookup(config, StrKey("quick_links"))), 2)
    ensures forall f :: f in Intro(Setup(config, theme)) && f.WelcomeMessage? ==> NoPlaceholder(f.text)
    ensures forall f :: f in RenderQuickLinks(Setup(config, theme).config) && f.Anchor? ==> NoPlaceholder(f.text) && NoPlaceholder(f.href)
  {
    var vals := ValuesOf(Configure(config, theme));
    var c1 := PrepareData(config, "welcome_content", vals);
    var c2 := PrepareData(c1, "quick_links", vals);
    assert Setup(config, theme).config == c2;
    WelcomeClean(config, vals);
    QuickLinksClean(config, vals);
  }

  lemma WelcomeClean(config: seq<Entry>, vals: ThemeValues)
    requires BraceFreeValues(vals)
    requires TemplateLeaves(ValueOr(Lookup(config, StrKey("welcome_content"))), 0)
    ensures var w := Lookup(PrepareContent(config, vals), StrKey("welcome_content"));
            Filled(w) ==> NoPlaceholder(ToPhpString(w.value))
  {
    var W := StrKey("welcome_content");
    assert ArrayKey("welcome_content") == W;
    assert ArrayKey("quick_links") != W;
    var c1 := PrepareData(config, "welcome_content", vals);
    PrepareDataElsewhere(c1, "quick_links", vals, W);
    var w := Lookup(config, W);
    if Filled(w) {
      PreparedTextClean(vals, w.value);
    }
  }

  lemma QuickLinksClean(config: seq<Entry>, vals: ThemeValues)
    requires BraceFreeValues(vals)
    requires TemplateLeaves(ValueOr(Lookup(config, StrKey("quick_links"))), 2)
    ensures forall f :: f in RenderQuickLinks(PrepareContent(config, vals)) && f.Anchor? ==> NoPlaceholder(f.text) && NoPlaceholder(f.href)
  {
    var Q := StrKey("quick_links");
    assert ArrayKey("quick_links") == Q;
    assert ArrayKey("welcome_content") != Q;
    var c1 := PrepareData(config, "welcome_content", vals);
    var c2 := PrepareData(c1, "quick_links", vals);
    PrepareDataElsewhere(config, "welcome_content", vals, Q);
    var q := Lookup(config, Q);
    forall f | f in RenderQuickLinks(c2) && f.Anchor?
      ensures NoPlaceholder(f.text) && NoPlaceholder(f.href)
    {
      QuickLinkOrigin(c2, f);
      var ql := ValueOr(Lookup(c2, Q));
      var i :| 0 <= i < |ql.entries| && f == QuickLinkAnchor(ql.entries[i].val);
      assert Filled(q) && q.value.Arr?;
      assert ql == PrepareValue(vals, q.value);
      assert TemplateLeaves(q.value.entries[i].val, 1);
      QuickLinkTextClean(vals, q.value.entries[i].val);
    }
  }

  // ---------------------------------------------------------------------
  // A worked configuration
  // ---------------------------------------------------------------------

  lemma PlainTextIsKept(vals: ThemeValues, s: string)
    requires BraceFree(s)
    ensures Filter(vals, s) == s
  {
    BraceFreeHasNoToken(s, ThemeName);
    BraceFreeHasNoToken(s, ThemeSlug);
    BraceFreeHasNoToken(s, ThemeVersion);
    FilterWithoutTokens(vals, s);
  }

  /** The fields of a tab titled `title`, in mode `grid`, holding the single item `item`. */
  predicate GridTab(tab: Value, title: string, item: Value)
  {
    Field(tab, "title") == Some(Str(title)) && Field(tab, "render_mode") == Some(Str("grid"))
    && Field(tab, "items") == Some(Arr([Entry(IntKey(0), item)]))
  }

  /** The fields of an item with a title and a primary button that opens `url` in a new tab. */
  predicate ButtonItem(item: Value, title: string, text: string, url: string)
  {
    Field(item, "title") == Some(Str(title)) && Field(item, "icon") == None && Field(item, "description") == None
    && Field(item, "button_text") == Some(Str(text)) && Field(item, "button_url") == Some(Str(url))
    && Field(item, "button_type") == Some(Str("primary")) && Field(item, "is_new_tab") == Some(Bool(true))
  }

  /**
   * A configuration whose only tab, "start", is a grid with one button item:
   * with no tab requested its link is the active one, and the section holds
   * the item's heading and its primary button opening `url` in a new tab,
   * all texts kept verbatim when they hold no brace.
   */
  lemma StartTabRendersGridButton(info: Info, host: Host, tab: Value, item: Value, tabTitle: string, title: string, text: string, url: string)
    requires Tabs(info.config) == [Entry(StrKey("start"), tab)]
    requires GridTab(tab, tabTitle, item) && ButtonItem(item, title, text, url)
    requires Truthy(title) && Truthy(text) && Truthy(url)
    requires BraceFree(title) && BraceFree(text) && BraceFree(url)
    ensures RenderTabs(info, None) == [NavOpen, NavLink(info.pagePath, "start", true, tabTitle), NavClose]
    ensures RenderCurrentTabContent(info, None, host) ==
      [SectionOpen("ti-section ti-section-start ti-render-mode-grid ti-grid"),
       ItemOpen, ItemHeading(None, title), Anchor(url, "button button-primary", "_blank", text), ItemClose,
       SectionClose]
  {
    OnlyTabIsActive(info, "start", tab, tabTitle);
    StartTabContent(info, host, tab, item, tabTitle, title, text, url);
  }

  lemma OnlyTabIsActive(info: Info, key: string, tab: Value, tabTitle: string)
    requires Tabs(info.config) == [Entry(StrKey(key), tab)]
    requires Field(tab, "title") == Some(Str(tabTitle))
    ensures RenderTabs(info, None) == [NavOpen, NavLink(info.pagePath, key, true, tabTitle), NavClose]
  {
    assert NavLinks(info.pagePath, Tabs(info.config), StrKey(key)) == [NavLink(info.pagePath, key, true, tabTitle)];
  }

  lemma StartTabContent(info: Info, host: Host, tab: Value, item: Value, tabTitle: string, title: string, text: string, url: string)
    requires Tabs(info.config) == [Entry(StrKey("start"), tab)]
    requires GridTab(tab, tabTitle, item) && ButtonItem(item, title, text, url)
    requires Truthy(title) && Truthy(text) && Truthy(url)
    requires BraceFree(title) && BraceFree(text) && BraceFree(url)
    ensures RenderCurrentTabContent(info, None, host) ==
      [SectionOpen("ti-section ti-section-start ti-render-mode-grid ti-grid"),
       ItemOpen, ItemHeading(None, title), Anchor(url, "button button-primary", "_blank", text), ItemClose,
       SectionClose]
  {
    var vals := ValuesOf(info);
    var items := [ItemOpen, ItemHeading(None, title), Anchor(url, "button button-primary", "_blank", text), ItemClose];
    assert RenderGridItem(item, vals) == items by {
      ButtonItemRenders(item, vals, title, text, url);
    }
    SingleItemGridBody(tab, host, vals, tabTitle, item, items);
    StartGridClasses();
    FirstTabSection(info, host, "start", tab);
    SixFragments(SectionOpen("ti-section ti-section-start ti-render-mode-grid ti-grid"), items[0], items[1], items[2], items[3], SectionClose);
  }

  /** Sequence shape only; stated apart so the literal-heavy context above stays small. */
  lemma SixFragments(a: Fragment, b: Fragment, c: Fragment, d: Fragment, e: Fragment, f: Fragment)
    ensures [a] + [b, c, d, e] + [f] == [a, b, c, d, e, f]
  {
  }

  /** With no tab requested, the section is the first tab's, labelled by its key. */
  lemma FirstTabSection(info: Info, host: Host, key: string, tab: Value)
    requires Tabs(info.config) == [Entry(StrKey(key), tab)]
    ensures RenderCurrentTabContent(info, None, host)
      == [SectionOpen(SectionClasses(key, ValueOr(Field(tab, "render_mode"))))] + TabBody(tab, host, ValuesOf(info)) + [SectionClose]
  {
    assert Lookup(Tabs(info.config), StrKey(key)) == Some(tab);
  }

  lemma SingleItemGridBody(tab: Value, host: Host, vals: ThemeValues, title: string, item: Value, items: seq<Fragment>)
    requires GridTab(tab, title, item) && RenderGridItem(item, vals) == items
    ensures TabBody(tab, host, vals) == items
  {
    var es := [Entry(IntKey(0), item)];
    assert TabBody(tab, host, vals) == GridSection(tab, vals) by {
      GridModeBody(tab, host, vals);
    }
    assert GridSection(tab, vals) == GridItems(es, vals) by {
      GridSectionOf(tab, vals, es);
    }
    SingleItemGrid(item, vals, items);
  }

  lemma GridSectionOf(tab: Value, vals: ThemeValues, es: seq<Entry>)
    requires Field(tab, "items") == Some(Arr(es)) && |es| > 0
    ensures GridSection(tab, vals) == GridItems(es, vals)
  {
  }

  lemma GridModeBody(tab: Value, host: Host, vals: ThemeValues)
    requires Field(tab, "render_mode") == Some(Str("grid"))
    ensures TabBody(tab, host, vals) == GridSection(tab, vals)
  {
    var mode := ValueOr(Field(tab, "render_mode"));
    assert mode == Str("grid");
    assert !LooseEqualsWord(mode, "content") && !LooseEqualsWord(mode, "tgmpa") && !LooseEqualsWord(mode, "custom");
    assert LooseEqualsWord(mode, "grid");
  }

  lemma SingleItemGrid(item: Value, vals: ThemeValues, items: seq<Fragment>)
    requires RenderGridItem(item, vals) == items
    ensures GridItems([Entry(IntKey(0), item)], vals) == items
  {
    assert GridItems([Entry(IntKey(0), item)][1..], vals) == [];
  }

  lemma StartGridClasses()
    ensures SectionClasses("start", Str("grid")) == "ti-section ti-section-start ti-render-mode-grid ti-grid"
  {
  }

  lemma ButtonItemRenders(item: Value, vals: ThemeValues, title: string, text: string, url: string)
    requires ButtonItem(item, title, text, url)
    requires Truthy(title) && Truthy(text) && Truthy(url)
    requires BraceFree(title) && BraceFree(text) && BraceFree(url)
    ensures RenderGridItem(item, vals)
      == [ItemOpen, ItemHeading(None, title), Anchor(url, "button button-primary", "_blank", text), ItemClose]
  {
    var h := [ItemHeading(None, title)];
    var b := [Anchor(url, "button button-primary", "_blank", text)];
    PlainTextIsKept(vals, title);
    PlainTextIsKept(vals, text);
    PlainTextIsKept(vals, url);
    TitleOnlyHeading(item, vals, title);
    PrimaryNewTabButton(item, vals, text, url);
    assert GridDescription(item, vals) == [];
    GridItemOfParts(item, vals, h, [], b);
    FourFragments(ItemOpen, h[0], b[0], ItemClose);
  }

  /** Sequence shape only; stated apart so the literal-heavy context above stays small. */
  lemma FourFragments(a: Fragment, x: Fragment, y: Fragment, z: Fragment)
    ensures [a] + [x] + [] + [y] + [z] == [a, x, y, z]
  {
  }

  lemma GridItemOfParts(item: Value, vals: ThemeValues, h: seq<Fragment>, d: seq<Fragment>, b: seq<Fragment>)
    requires GridHeading(item, vals) == h && GridDescription(item, vals) == d && GridButton(item, vals) == b
    ensures RenderGridItem(item, vals) == [ItemOpen] + h + d + b + [ItemClose]
  {
  }

  lemma TitleOnlyHeading(item: Value, vals: ThemeValues, title: string)
    requires !IsEmpty(Str(title)) && Filter(vals, title) == title
    requires Field(item, "title") == Some(Str(title)) && Field(item, "icon") == None
    ensures GridHeading(item, vals) == [ItemHeading(None, title)]
  {
  }

  lemma PrimaryNewTabButton(item: Value, vals: ThemeValues, text: string, url: string)
    requires !IsEmpty(Str(text)) && !IsEmpty(Str(url))
    requires Filter(vals, text) == text && Filter(vals, url) == url
    requires Field(item, "button_text") == Some(Str(text)) && Field(item, "button_url") == Some(Str(url))
    requires Field(item, "button_type") == Some(Str("primary")) && Field(item, "is_new_tab") == Some(Bool(true))
    ensures GridButton(item, vals) == [Anchor(url, "button button-primary", "_blank", text)]
  {
  }
}

=== FILE: substitution.dfy ===
/**
 * Token substitution: `Info::filter_content`, which is PHP's `str_replace`
 * with three search/replace pairs applied one after another.
 */
module Substitution {
  import opened Options

  // ---------------------------------------------------------------------
  // Single-pattern replacement (str_replace with one search string)
  // ---------------------------------------------------------------------

  predicate StartsWith(s: string, p: string)
  {
    |p| <= |s| && s[..|p|] == p
  }

  /** `p` occurs in `s` starting at index `i`. */
  predicate OccursAt(s: string, p: string, i: int)
  {
    0 <= i && i + |p| <= |s| && s[i..i + |p|] == p
  }

  predicate Contains(s: string, p: string)
  {
    exists i :: 0 <= i <= |s| && OccursAt(s, p, i)
  }

  /**
   * Left-to-right, non-overlapping replacement of every occurrence of `p`
   * by `r`; scanning resumes after the inserted text, so `r` itself is never
   * rescanned. An empty search string leaves the subject alone, as in PHP.
   */
  function ReplaceAll(s: string, p: string, r: string): string
    decreases |s|
  {
    if |p| == 0 || |s| == 0 then s
    else if StartsWith(s, p) then r + ReplaceAll(s[|p|..], p, r)
    else [s[0]] + ReplaceAll(s[1..], p, r)
  }

  /** PHP's `explode( p, s )`: the pieces of `s` between the occurrences ReplaceAll finds. */
  function Split(s: string, p: string): (parts: seq<string>)
    requires |p| > 0
    ensures |parts| > 0
    ensures StartsWith(s, parts[0])
    decreases |s|
  {
    if |s| == 0 then [""]
    else if StartsWith(s, p) then [""] + Split(s[|p|..], p)
    else
      var rest := Split(s[1..], p);
      [[s[0]] + rest[0]] + rest[1..]
  }

  /** PHP's `implode( sep, parts )`. */
  function Join(parts: seq<string>, sep: string): string
    decreases |parts|
  {
    if |parts| == 0 then ""
    else if |parts| == 1 then parts[0]
    else parts[0] + sep + Join(parts[1..], sep)
  }

  lemma JoinExtendFirst(c: char, parts: seq<string>, sep: string)
    requires |parts| > 0
    ensures Join([[c] + parts[0]] + parts[1..], sep) == [c] + Join(parts, sep)
  {
    var ps := [[c] + parts[0]] + parts[1..];
    if |parts| > 1 {
      assert ps[1..] == parts[1..];
    }
  }

  /** Replacing is splitting at the pattern and joining with the replacement. */
  lemma {:induction false} ReplaceAllIsJoinOfSplit(s: string, p: string, r: string)
    requires |p| > 0
    ensures ReplaceAll(s, p, r) == Join(Split(s, p), r)
    decreases |s|
  {
    if |s| == 0 {
    } else if StartsWith(s, p) {
      ReplaceAllIsJoinOfSplit(s[|p|..], p, r);
      var ps := [""] + Split(s[|p|..], p);
      assert ps[1..] == Split(s[|p|..], p);
    } else {
      ReplaceAllIsJoinOfSplit(s[1..], p, r);
      JoinExtendFirst(s[0], Split(s[1..], p), r);
    }
  }

  /** Replacing a pattern by itself changes nothing. */
  lemma {:induction false} ReplaceBySelf(s: string, p: string)
    ensures ReplaceAll(s, p, p) == s
    decreases |s|
  {
    if |p| == 0 || |s| == 0 {
    } else if StartsWith(s, p) {
      ReplaceBySelf(s[|p|..], p);
      assert s == s[..|p|] + s[|p|..];
    } else {
      ReplaceBySelf(s[1..], p);
      assert s == [s[0]] + s[1..];
    }
  }

  /** Splitting at a pattern and joining with the same pattern restores the subject. */
  lemma SplitJoinRoundTrip(s: string, p: string)
    requires |p| > 0
    ensures Join(Split(s, p), p) == s
  {
    ReplaceAllIsJoinOfSplit(s, p, p);
    ReplaceBySelf(s, p);
  }

  /** No piece of a split contains the pattern: every occurrence was cut out. */
  lemma {:induction false} SplitPiecesAvoidPattern(s: string, p: string)
    requires |p| > 0
    ensures forall q :: q in Split(s, p) ==> !Contains(q, p)
    decreases |s|
  {
    if |s| == 0 {
      assert forall i :: !OccursAt("", p, i);
    } else if StartsWith(s, p) {
      SplitPiecesAvoidPattern(s[|p|..], p);
      assert forall i :: !OccursAt("", p, i);
    } else {
      var rest := Split(s[1..], p);
      SplitPiecesAvoidPattern(s[1..], p);
      var q0 := [s[0]] + rest[0];
      assert rest[0] in rest;
      assert s[..|q0|] == q0 by {
        assert s[1..][..|rest[0]|] == rest[0];
      }
      forall i | 0 <= i <= |q0|
        ensures !OccursAt(q0, p, i)
      {
        if i == 0 {
          if |p| <= |q0| {
            assert q0[..|p|] == s[..|p|];
          }
        } else {
          assert !OccursAt(rest[0], p, i - 1);
          if i + |p| <= |q0| {
            assert q0[i..i + |p|] == rest[0][i - 1..i - 1 + |p|];
          }
        }
      }
      assert forall q :: q in rest[1..] ==> q in rest;
    }
  }

  /** A subject without the pattern comes back unchanged. */
  lemma {:induction false} ReplaceAbsent(s: string, p: string, r: string)
    requires !Contains(s, p)
    ensures ReplaceAll(s, p, r) == s
    decreases |s|
  {
    if |p| == 0 || |s| == 0 {
    } else {
      assert !OccursAt(s, p, 0);
      forall i | OccursAt(s[1..], p, i)
        ensures false
      {
        assert s[1..][i..i + |p|] == s[i + 1..i + 1 + |p|];
        assert OccursAt(s, p, i + 1);
      }
      ReplaceAbsent(s[1..], p, r);
    }
  }

  /** A prefix in which no occurrence starts is copied through unchanged. */
  lemma {:induction false} ReplaceSkipsPrefix(a: string, b: string, p: string, r: string)
    requires |p| > 0
    requires forall i :: 0 <= i < |a| ==> !StartsWith((a + b)[i..], p)
    ensures ReplaceAll(a + b, p, r) == a + ReplaceAll(b, p, r)
    decreases |a|
  {
    if |a| > 0 {
      assert (a + b)[0..] == a + b;
      assert (a + b)[1..] == a[1..] + b;
      forall i | 0 <= i < |a[1..]|
        ensures !StartsWith((a[1..] + b)[i..], p)
      {
        assert (a[1..] + b)[i..] == (a + b)[i + 1..];
      }
      ReplaceSkipsPrefix(a[1..], b, p, r);
    }
  }

  /** An occurrence at the front is replaced and the scan resumes after it. */
  lemma ReplaceAtFront(p: string, b: string, r: string)
    requires |p| > 0
    ensures ReplaceAll(p + b, p, r) == r + ReplaceAll(b, p, r)
  {
    assert (p + b)[..|p|] == p;
    assert (p + b)[|p|..] == b;
  }

  // ---------------------------------------------------------------------
  // The three theme placeholders
  // ---------------------------------------------------------------------

  datatype Placeholder = ThemeName | ThemeSlug | ThemeVersion

  const AllPlaceholders: set<Placeholder> := {ThemeName, ThemeSlug, ThemeVersion}

  /** The word between the braces. */
  function PlaceholderWord(k: Placeholder): string
  {
    match k
    case ThemeName => "theme_name"
    case ThemeSlug => "theme_slug"
    case ThemeVersion => "theme_version"
  }

  /** The literal token searched for in content. */
  function TokenText(k: Placeholder): (t: string)
    ensures |t| >= 14 && t[0] == '{' && t[1] == '{' && t[2] == 't'
    ensures '{' !in t[2..]
  {
    "{{" + PlaceholderWord(k) + "}}"
  }

  /** The three replacement values, in `filter_content`'s order: name, slug, version. */
  datatype ThemeValues = ThemeValues(name: string, slug: string, version: string)

  function ValueOf(vals: ThemeValues, k: Placeholder): string
  {
    match k
    case ThemeName => vals.name
    case ThemeSlug => vals.slug
    case ThemeVersion => vals.version
  }

  /**
   * `filter_content`: str_replace with an array of searches replaces them one
   * after the other, each pass working on the previous pass's result.
   */
  function Filter(vals: ThemeValues, s: string): string
  {
    var afterName := ReplaceAll(s, TokenText(ThemeName), vals.name);
    var afterSlug := ReplaceAll(afterName, TokenText(ThemeSlug), vals.slug);
    ReplaceAll(afterSlug, TokenText(ThemeVersion), vals.version)
  }

  /** A string with none of the three tokens is returned unchanged. */
  lemma FilterWithoutTokens(vals: ThemeValues, s: string)
    requires forall k :: !Contains(s, TokenText(k))
    ensures Filter(vals, s) == s
  {
    ReplaceAbsent(s, TokenText(ThemeName), vals.name);
    ReplaceAbsent(s, TokenText(ThemeSlug), vals.slug);
    ReplaceAbsent(s, TokenText(ThemeVersion), vals.version);
  }

  // ---------------------------------------------------------------------
  // Templates: text in which every '{' opens one of the placeholders
  // ---------------------------------------------------------------------

  predicate BraceFree(s: string)
  {
    '{' !in s
  }

  predicate BraceFreeValues(vals: ThemeValues)
  {
    BraceFree(vals.name) && BraceFree(vals.slug) && BraceFree(vals.version)
  }

  /** No token occurs in a string without braces. */
  lemma BraceFreeHasNoToken(s: string, k: Placeholder)
    requires BraceFree(s)
    ensures !Contains(s, TokenText(k))
  {
    var t := TokenText(k);
    forall i | 0 <= i <= |s|
      ensures !OccursAt(s, t, i)
    {
      if i + |t| <= |s| {
        assert s[i] in s;
        assert s[i..i + |t|][0] == s[i];
      }
    }
  }

  /** No theme placeholder occurs in the text. */
  predicate NoPlaceholder(s: string)
  {
    forall k :: !Contains(s, TokenText(k))
  }

  /** Which placeholder, if any, the string begins with. */
  function LeadingPlaceholder(s: string): (r: Option<Placeholder>)
    ensures r.Some? ==> StartsWith(s, TokenText(r.value))
  {
    if StartsWith(s, TokenText(ThemeName)) then Some(ThemeName)
    else if StartsWith(s, TokenText(ThemeSlug)) then Some(ThemeSlug)
    else if StartsWith(s, TokenText(ThemeVersion)) then Some(ThemeVersion)
    else None
  }

  /** Text whose every '{' begins one of the placeholders in `allowed`. */
  predicate IsTemplate(s: string, allowed: set<Placeholder>)
    decreases |s|
  {
    if |s| == 0 then true
    else if s[0] != '{' then IsTemplate(s[1..], allowed)
    else match LeadingPlaceholder(s)
      case None => false
      case Some(k) => k in allowed && IsTemplate(s[|TokenText(k)|..], allowed)
  }

  /**
   * The reference meaning of substitution on a template: one left-to-right
   * pass that puts each placeholder in `done` to its value and leaves the
   * others as tokens. Inserted values are never looked at again.
   */
  function ExpandSome(vals: ThemeValues, s: string, done: set<Placeholder>): string
    requires IsTemplate(s, AllPlaceholders)
    decreases |s|
  {
    if |s| == 0 then ""
    else if s[0] != '{' then [s[0]] + ExpandSome(vals, s[1..], done)
    else
      var k := LeadingPlaceholder(s).value;
      (if k in done then ValueOf(vals, k) else TokenText(k)) + ExpandSome(vals, s[|TokenText(k)|..], done)
  }

  function Expand(vals: ThemeValues, s: string): string
    requires IsTemplate(s, AllPlaceholders)
  {
    ExpandSome(vals, s, AllPlaceholders)
  }

  /** Expanding nothing gives the template back. */
  lemma {:induction false} ExpandNothing(vals: ThemeValues, s: string)
    requires IsTemplate(s, AllPlaceholders)
    ensures ExpandSome(vals, s, {}) == s
    decreases |s|
  {
    if |s| > 0 {
      if s[0] != '{' {
        ExpandNothing(vals, s[1..]);
        assert s == [s[0]] + s[1..];
      } else {
        var k := LeadingPlaceholder(s).value;
        var t := TokenText(k);
        var rest := s[|t|..];
        assert s == t + rest by {
          assert StartsWith(s, t);
          assert s[..|t|] == t;
        }
        ExpandNothing(vals, rest);
        assert ExpandSome(vals, s, {}) == t + ExpandSome(vals, rest, {});
      }
    }
  }

  /** With brace-free values, a full expansion has no braces left. */
  lemma {:induction false} ExpandIsBraceFree(vals: ThemeValues, s: string)
    requires BraceFreeValues(vals)
    requires IsTemplate(s, AllPlaceholders)
    ensures BraceFree(Expand(vals, s))
    decreases |s|
  {
    if |s| > 0 {
      if s[0] != '{' {
        ExpandIsBraceFree(vals, s[1..]);
      } else {
        var k := LeadingPlaceholder(s).value;
        ExpandIsBraceFree(vals, s[|TokenText(k)|..]);
      }
    }
  }

  lemma TokensDiffer(j: Placeholder, k: Placeholder)
    requires j != k
    ensures TokenText(j)[8] != TokenText(k)[8]
  {
  }

  /** No occurrence of another placeholder's token starts inside a token. */
  lemma TokenHidesOthers(j: Placeholder, k: Placeholder, b: string)
    requires j != k
    ensures forall i :: 0 <= i < |TokenText(j)| ==> !StartsWith((TokenText(j) + b)[i..], TokenText(k))
  {
    var t := TokenText(j);
    var p := TokenText(k);
    TokensDiffer(j, k);
    forall i | 0 <= i < |t|
      ensures !StartsWith((t + b)[i..], p)
    {
      if i == 0 {
        if |p| <= |t + b| {
          assert (t + b)[..|p|][8] == t[8];
        }
      } else if i == 1 {
        assert (t + b)[i..][1] == t[2];
      } else {
        assert (t + b)[i..][0] == t[i];
        assert t[i] in t[2..];
      }
    }
  }

  /** No occurrence starts inside brace-free text. */
  lemma BraceFreeHidesTokens(a: string, b: string, k: Placeholder)
    requires BraceFree(a)
    ensures forall i :: 0 <= i < |a| ==> !StartsWith((a + b)[i..], TokenText(k))
  {
    forall i | 0 <= i < |a|
      ensures !StartsWith((a + b)[i..], TokenText(k))
    {
      assert (a + b)[i..][0] == a[i];
      assert a[i] in a;
    }
  }

  /**
   * One pass of str_replace over a partly expanded template expands one more
   * placeholder, provided the values put in so far and the new one are brace-free.
   */
  lemma {:induction false} ReplaceExpandsOneMore(vals: ThemeValues, s: string, done: set<Placeholder>, k: Placeholder)
    requires IsTemplate(s, AllPlaceholders)
    requires k !in done
    requires forall j :: j in done + {k} ==> BraceFree(ValueOf(vals, j))
    ensures ReplaceAll(ExpandSome(vals, s, done), TokenText(k), ValueOf(vals, k)) == ExpandSome(vals, s, done + {k})
    decreases |s|
  {
    var p := TokenText(k);
    var v := ValueOf(vals, k);
    if |s| > 0 {
      if s[0] != '{' {
        ReplaceExpandsOneMore(vals, s[1..], done, k);
        var tail := ExpandSome(vals, s[1..], done);
        BraceFreeHidesTokens([s[0]], tail, k);
        ReplaceSkipsPrefix([s[0]], tail, p, v);
      } else {
        var j := LeadingPlaceholder(s).value;
        var rest := s[|TokenText(j)|..];
        ReplaceExpandsOneMore(vals, rest, done, k);
        var tail := ExpandSome(vals, rest, done);
        if j in done {
          BraceFreeHidesTokens(ValueOf(vals, j), tail, k);
          ReplaceSkipsPrefix(ValueOf(vals, j), tail, p, v);
        } else if j == k {
          ReplaceAtFront(p, tail, v);
        } else {
          TokenHidesOthers(j, k, tail);
          ReplaceSkipsPrefix(TokenText(j), tail, p, v);
        }
      }
    }
  }

  /**
   * On a template, with brace-free theme values, the three chained passes of
   * `filter_content` agree with the single-pass reference expansion.
   */
  lemma FilterExpandsTemplate(vals: ThemeValues, s: string)
    requires BraceFreeValues(vals)
    requires IsTemplate(s, AllPlaceholders)
    ensures Filter(vals, s) == Expand(vals, s)
  {
    ExpandNothing(vals, s);
    ReplaceExpandsOneMore(vals, s, {}, ThemeName);
    assert {} + {ThemeName} == {ThemeName};
    ReplaceExpandsOneMore(vals, s, {ThemeName}, ThemeSlug);
    assert {ThemeName} + {ThemeSlug} == {ThemeName, ThemeSlug};
    ReplaceExpandsOneMore(vals, s, {ThemeName, ThemeSlug}, ThemeVersion);
    assert {ThemeName, ThemeSlug} + {ThemeVersion} == AllPlaceholders;
  }

  /**
   * On a template, with brace-free theme values, no token survives
   * `filter_content` and a second application changes nothing.
   */
  lemma FilterTemplateIdempotent(vals: ThemeValues, s: string)
    requires BraceFreeValues(vals)
    requires IsTemplate(s, AllPlaceholders)
    ensures forall k :: !Contains(Filter(vals, s), TokenText(k))
    ensures Filter(vals, Filter(vals, s)) == Filter(vals, s)
  {
    FilterExpandsTemplate(vals, s);
    ExpandIsBraceFree(vals, s);
    var out := Filter(vals, s);
    forall k
      ensures !Contains(out, TokenText(k))
    {
      BraceFreeHasNoToken(out, k);
    }
    FilterWithoutTokens(vals, out);
  }

  /** Brace-free text is a template, so the theorems above cover plain text too. */
  lemma {:induction false} BraceFreeIsTemplate(s: string)
    requires BraceFree(s)
    ensures IsTemplate(s, AllPlaceholders)
    decreases |s|
  {
    if |s| > 0 {
      assert s[0] in s;
      assert forall c :: c in s[1..] ==> c in s;
      BraceFreeIsTemplate(s[1..]);
    }
  }

  // ---------------------------------------------------------------------
  // Where chained passes differ from one literal pass
  // ---------------------------------------------------------------------

  /**
   * A theme name that itself contains `{{theme_slug}}` is expanded again by
   * the slug pass: the chained passes do re-expand inserted text.
   */
  lemma NameValueIsRescanned()
    ensures var vals := ThemeValues(TokenText(ThemeSlug), "x", "");
            var s := TokenText(ThemeName);
            IsTemplate(s, AllPlaceholders) && Filter(vals, s) == "x" && Expand(vals, s) == TokenText(ThemeSlug)
  {
    var vals := ThemeValues(TokenText(ThemeSlug), "x", "");
    var s := TokenText(ThemeName);
    ReplaceAtFront(s, "", vals.name);
    ReplaceAtFront(TokenText(ThemeSlug), "", "x");
    assert ReplaceAll("x", TokenText(ThemeVersion), "") == "x";
    assert LeadingPlaceholder(s) == Some(ThemeName);
    assert s[|s|..] == "";
  }

  /** Two opening braces before a token hide every placeholder token. */
  lemma OpenBracesHide(b: string, k: Placeholder)
    requires |b| >= 2 && b[0] == '{' && b[1] == '{'
    ensures forall i :: 0 <= i < 2 ==> !StartsWith(("{{" + b)[i..], TokenText(k))
  {
    forall i | 0 <= i < 2
      ensures !StartsWith(("{{" + b)[i..], TokenText(k))
    {
      assert ("{{" + b)[i..][2] == b[i];
    }
  }

  lemma FirstPassFindsNoName()
    ensures ReplaceAll("{{" + TokenText(ThemeSlug), TokenText(ThemeName), "A") == "{{" + TokenText(ThemeSlug)
  {
    var ts := TokenText(ThemeSlug);
    OpenBracesHide(ts, ThemeName);
    ReplaceSkipsPrefix("{{", ts, TokenText(ThemeName), "A");
    TokenHidesOthers(ThemeSlug, ThemeName, "");
    ReplaceSkipsPrefix(ts, "", TokenText(ThemeName), "A");
    assert ts + "" == ts;
  }

  lemma SecondPassFormsName()
    ensures ReplaceAll("{{" + TokenText(ThemeSlug), TokenText(ThemeSlug), "theme_name}}") == TokenText(ThemeName)
  {
    var ts := TokenText(ThemeSlug);
    OpenBracesHide(ts, ThemeSlug);
    ReplaceSkipsPrefix("{{", ts, ts, "theme_name}}");
    ReplaceAtFront(ts, "", "theme_name}}");
  }

  lemma VersionPassKeepsName(version: string)
    ensures ReplaceAll(TokenText(ThemeName), TokenText(ThemeVersion), version) == TokenText(ThemeName)
  {
    var tn := TokenText(ThemeName);
    TokenHidesOthers(ThemeName, ThemeVersion, "");
    ReplaceSkipsPrefix(tn, "", TokenText(ThemeVersion), version);
    assert tn + "" == tn;
  }

  /**
   * Brace-free values do not make `filter_content` idempotent on arbitrary
   * text: a token can form across the boundary of an inserted value.
   */
  lemma FilterNotIdempotentInGeneral()
    ensures var vals := ThemeValues("A", "theme_name}}", "1.0");
            var s := "{{" + TokenText(ThemeSlug);
            BraceFreeValues(vals) && Filter(vals, s) == TokenText(ThemeName)
            && Filter(vals, Filter(vals, s)) == "A"
  {
    var vals := ThemeValues("A", "theme_name}}", "1.0");
    FirstPassFindsNoName();
    SecondPassFormsName();
    VersionPassKeepsName(vals.version);
    ReplaceAtFront(TokenText(ThemeName), "", "A");
    assert TokenText(ThemeName) + "" == TokenText(ThemeName);
    assert ReplaceAll("A", TokenText(ThemeSlug), vals.slug) == "A";
    assert ReplaceAll("A", TokenText(ThemeVersion), vals.version) == "A";
  }
}
